=== FILE: README.md ===
# Funimation extractor core, modelled in Dafny

This project models the pure decision logic of yt-dlp's Funimation extractors
(`yt_dlp/extractor/funimation.py`): everything that happens to the JSON the
site returns once it has been downloaded and parsed.

- **Experiences** (`experiences.dfy`): `FunimationIE._get_experiences`, the
  generator that walks `languages → videos → versions` and yields
  `(language, version.title(), format)` triples. It raises as soon as it meets
  a level that is not a dict.
- **Episode lookup** (`lookup.dfy`): `_get_episode` from the parsed `show`
  object on. It searches seasons and episodes either by `episodePk` or by an
  experience's `experienceId`, handles not-found as fatal or non-fatal, and
  keeps the exceptions the nested loops can raise.
- **Format selection** (`selection.dfy`): the experience loop of
  `FunimationIE._real_extract`:
  - the skip predicate for the initial-experience, language and version filters;
  - the `qualities` rankings over the reversed request lists, defaulting to
    `['']` and `['uncut', 'simulcast']`;
  - the labelling of every downloaded format;
  - the "no video formats" error.
- **Subtitles** (`subtitles.dfy`): both `_get_subtitles` methods. They fill an
  insertion-ordered dict of lists, append-only and never holding an entry twice,
  with keys and names built by `join_nonempty`.
- **Show playlist** (`playlist.dfy`): `FunimationShowIE._real_extract`. It
  stable-sorts the VOD items by `episodeOrder`, with a missing value counting
  as -1, builds one entry per item, and removes repeated entries with `orderedSet`.
- **Language relabelling** (`relabel.dfy`): the loop in
  `FunimationMetaIE._real_extract` that replaces a format's language code with
  the English name of the show's first matching audio language for that version.

Supporting modules:

- `results.dfy`: Python exceptions as `Result` errors.
- `json.dfy`: parsed JSON values and the Python operations applied to them:
  - `.get`, `[]` and iteration
  - `str`, `==` and truthiness
  - `traverse_obj` and `join_nonempty`
- `text.dfy`: ASCII `lower`, `upper`, `title` and `capitalize`, `str` of an
  integer, and `join`/`split`.
- `search.dfy`: generators as a list of yielded items plus an optional
  exception raised after them, and the "return the first match" loop over them.
- `seqs.dfy`: `orderedSet`, reversal and first positions.

Network downloads are inputs to the model:

- the parsed show data;
- the formats downloaded for each experience, as a function from experience
  id to formats;
- the show and playback JSON.

## Model

| member | source | states |
|---|---|---|
| Search.Bind | yt_dlp/extractor/funimation.py:157-161 | A nested generator raises exactly when one of its inner generators raises. Without a raise it yields all inner outputs concatenated. With one, it stops in the first raising inner generator: it has yielded every earlier output in full, then what that generator yielded before raising, and it carries that generator's exception. |
| Search.BindStep | yt_dlp/extractor/funimation.py:157-161 | Where the rest of a nested loop stops, the whole loop stops one inner generator later, unless the first inner generator already raised. |
| Search.FirstMatch | yt_dlp/extractor/funimation.py:169-177 | A "return the first match" loop returns the first item whose test does not answer false: the item if the test was true, the exception if it raised. When every test answers false, the loop gives not-found, or the generator's own exception. |
| Search.FirstDecidedExists | yt_dlp/extractor/funimation.py:169-177 | Such a loop always ends one of two ways: at a first deciding item, or with every item rejected. |
| Experiences.Languages | yt_dlp/extractor/funimation.py:158 | `episode.get('languages', {}).items()` raises AttributeError exactly when the episode is not a dict or its `languages` value is not a dict. Otherwise it gives that dict's pairs, in order; an episode without a `languages` key has none. |
| Experiences.VersionsOf | yt_dlp/extractor/funimation.py:160-161 | The innermost loop raises AttributeError exactly when the video entry is not a dict. Otherwise it yields one triple per version entry, in dict order, with the version key title-cased. |
| Experiences.VideosOf | yt_dlp/extractor/funimation.py:159-161 | The middle loop raises exactly when the language entry, or one of its video entries, is not a dict, and the exception is always AttributeError. A language entry that is not a dict raises before yielding anything. When a video entry raises, the versions of the videos before it have already been yielded, in order. |
| Experiences.ExperienceStream | yt_dlp/extractor/funimation.py:156-161 | The generator raises exactly when some language, video or version level is not a dict. Otherwise it yields the reference flattening of all (language, title-cased version, format) triples in dict order. An episode without `languages` yields nothing. An episode that is not a dict raises AttributeError before yielding anything. When a language raises, everything yielded for the languages before it comes first, in order, followed by what that language yielded before it raised. |
| Experiences.ShapedStream | yt_dlp/extractor/funimation.py:157-161 | The three nested loops raise exactly when the shape is wrong. When the shape is right, they yield the concatenation of every language's triples. |
| Text.TitleChars | yt_dlp/extractor/funimation.py:161 | `title()` keeps the length. It upper-cases a character at the start or after a non-letter, and lower-cases it otherwise. |
| Text.LowerOfTitle | yt_dlp/extractor/funimation.py:203-204 | Lower-casing the title-cased version gives the lower-cased raw version, so the filter sees the version as the site spells it, in any case. |
| Text.LowerOfCapitalize | yt_dlp/extractor/funimation.py:388 | Lower-casing a capitalized version gives the lower-cased raw version. |
| Text.LowerOfUpper | yt_dlp/extractor/funimation.py:202-204 | Lower-casing an upper-cased string gives the lower-cased string, so the language filter sees a language in any case alike. |
| Text.CaseMaps | yt_dlp/extractor/funimation.py:203-204 | Lower- and upper-casing absorb each other and keep whether a character is a letter. |
| Text.NatStringValue | yt_dlp/extractor/funimation.py:201 | The decimal rendering of a natural number reads back as that number. |
| Text.IntStringInjective | yt_dlp/extractor/funimation.py:201 | `str` is injective on integers: two experience ids read from format data render to the same string only when they are the same number. |
| Text.IntStringSign | yt_dlp/extractor/funimation.py:201 | An integer's rendering starts with '-' exactly when it is negative; otherwise it is the plain digits. |
| Text.SplitJoin | yt_dlp/extractor/funimation.py:295-297 | Splitting a `_`-joined key on `_` gives back its parts, when no part contains `_`. |
| Json.Find | yt_dlp/extractor/funimation.py:158 | A dict lookup finds nothing exactly when no pair has the key; a found value is paired with the key. |
| Json.TraversePathAppend | yt_dlp/extractor/funimation.py:465 | Walking a key path in two pieces gives the same result as walking it all at once; a walk that stops early stays stopped. |
| Json.Get | yt_dlp/extractor/funimation.py:169-170 | `.get` succeeds exactly on a dict, and then returns the value under the first matching key, or the default when the key is absent. On anything else it raises AttributeError. |
| Json.Subscript | yt_dlp/extractor/funimation.py:201 | `v[key]` succeeds exactly on a dict holding the key, and gives the value of its first pair with that key. A dict without the key raises KeyError; anything else raises TypeError. |
| Json.Iterate | yt_dlp/extractor/funimation.py:285-286 | A `for` loop runs over lists, dicts and strings: a list gives its items, a dict its keys as strings, a string its one-character strings, each in order. Over anything else it raises TypeError. |
| Json.TraverseObj | yt_dlp/extractor/funimation.py:465 | `traverse_obj` along string keys gives the value the walk reaches, or `None` when a step meets a non-dict or missing key. An empty dict at the end is dropped to `None` as well. |
| Json.NonEmptyPartsMembers | yt_dlp/extractor/funimation.py:293-297 | The parts `join_nonempty` joins are exactly the `str` of its truthy values: every truthy value contributes, nothing else does, and all values falsy gives no part. |
| Json.NonEmptyPartsOfThree | yt_dlp/extractor/funimation.py:293-297 | `join_nonempty` of three values joins the `str` of each truthy one, in order. |
| Json.JoinNonEmptySplits | yt_dlp/extractor/funimation.py:293-297 | Splitting `join_nonempty` of three values at its delimiter gives back exactly the `str` of each truthy value, in order, when none contains the delimiter. |
| Text.Join | yt_dlp/extractor/funimation.py:293-297 | A joined string starts with the first part. |
| Lookup.EpisodesOf | yt_dlp/extractor/funimation.py:170 | The inner loop raises exactly when the season is not a dict (AttributeError) or its `episodes` cannot be iterated (TypeError), having yielded nothing. Otherwise it yields the season paired with each of its episodes, in order. |
| Lookup.SeasonEpisodes | yt_dlp/extractor/funimation.py:169-170 | Walking `seasons` raises AttributeError on a show that is not a dict, and TypeError on a dict whose `seasons` cannot be iterated; nothing else fails before the walk starts. The walk raises exactly when some season is not a dict or has `episodes` that cannot be iterated. Without a raise it visits the reference order: season by season, each season's episodes in order. When a season raises, the pairs of all earlier seasons have already been visited, in order, followed by the pairs that season yielded before it raised. |
| Lookup.VisitingOrder | yt_dlp/extractor/funimation.py:169-170 | When no season raises, the nested loops yield exactly the reference order of (season, episode) pairs. |
| Lookup.HasExperienceId | yt_dlp/extractor/funimation.py:176 | A format matches exactly when it is a dict whose `experienceId` equals the id as a number. It raises when it is not a dict. |
| Lookup.Matches | yt_dlp/extractor/funimation.py:171-177 | An episode-id query matches exactly when `str(episodePk)` equals the id, and raises exactly on a non-dict episode. An experience-id query answers true exactly when the first deciding experience has that id, and false exactly when every experience is rejected and the generator ends normally. It raises only from a non-dict format that decides first, or from the generator after every experience was rejected. |
| Lookup.SearchPairs | yt_dlp/extractor/funimation.py:169-182 | Over the visited pairs, a found triple is the first matching one. A first match always leads to a found result. Not found is returned exactly when the lookup is non-fatal, every pair is rejected and the walk ends normally. A fatal lookup with no match raises. |
| Lookup.SearchFindsFirstHit | yt_dlp/extractor/funimation.py:169-174 | A pair the nested loops return satisfies the query, and every pair visited before it was rejected. |
| Lookup.SearchReachesFirstHit | yt_dlp/extractor/funimation.py:169-174 | When some visited pair satisfies the query, the loops return a pair. |
| Lookup.SearchMissesExactly | yt_dlp/extractor/funimation.py:169-174 | The loops finish without a result exactly when every visited pair was rejected and nothing raised. |
| Lookup.SearchShow | yt_dlp/extractor/funimation.py:169-182 | An exception while reaching the seasons ends the search. A found triple is the first (season, episode) in visiting order that matches, with the show itself. A first match always leads to a found result. Not found is returned exactly when the lookup is non-fatal and nothing matches or raises. A fatal lookup with no match raises "Unable to find episode information". |
| Lookup.GetEpisodeAsWritten | yt_dlp/extractor/funimation.py:165-169 | As written, a falsy parse result raises AttributeError on `[].get`, whether or not the lookup is fatal. |
| Lookup.GetEpisode | yt_dlp/extractor/funimation.py:165-182 | With `{}` in place of `[]`, a falsy parse result is reported as not found: an error when fatal, `({}, {}, {})` otherwise. A truthy one is searched. |
| Lookup.EmptyShowDiscrepancy | yt_dlp/extractor/funimation.py:168-169 | On the show data `{}`, the non-fatal lookup raises as written but returns not-found as intended. |
| Selection.Quality | yt_dlp/extractor/funimation.py:196-197 | `qualities(ids)(q)` is the first position of `q` in `ids`, or -1 exactly when it is absent. |
| Selection.Ranking | yt_dlp/extractor/funimation.py:196-197 | With a default for an empty request, a value ranks below the list length, and ranks -1 exactly when it is not in the request (or in the default when nothing was requested). |
| Selection.LanguagePreference | yt_dlp/extractor/funimation.py:196 | A language ranks -1 exactly when its lower-cased name was not requested; with no request only the empty language ranks 0. |
| Selection.SourcePreference | yt_dlp/extractor/funimation.py:197 | A version ranks -1 exactly when its lower-cased name was not requested, or is neither `uncut` nor `simulcast` when nothing was requested. |
| Selection.RankOfRequested | yt_dlp/extractor/funimation.py:196-197 | On the reversed request list, a value ranks `len - 1 - k`, where `k` is its last position in the request. |
| Selection.PreferenceOrder | yt_dlp/extractor/funimation.py:196-197 | A value requested earlier ranks strictly higher than one requested later. Every requested value ranks at or above 0; anything not requested ranks -1. |
| Selection.PreferencesFollowRequest | yt_dlp/extractor/funimation.py:196-197 | Of two requested versions, the one whose lower-cased name was last mentioned earlier gets the higher source preference, in any spelling; the same holds for languages and the language preference. A version or language that was not requested ranks -1. |
| Selection.DefaultSourcePreference | yt_dlp/extractor/funimation.py:197 | With no version requested, `uncut` ranks 1, `simulcast` 0 and anything else -1, in any letter case. |
| Selection.ExperienceId | yt_dlp/extractor/funimation.py:201 | `str(fmt['experienceId'])` succeeds exactly when the format is a dict holding that key, and is the `str` of its value (the string itself for a string). A dict without the key raises KeyError; anything else raises TypeError. |
| Selection.Skipped | yt_dlp/extractor/funimation.py:202-205 | An experience is kept exactly when it passes all three tests: its language and its version were requested (or no language or version was requested), and, under the compat option, it is the URL's own experience. |
| Selection.FiltersIgnoreCase | yt_dlp/extractor/funimation.py:202-205 | The filters judge the title-cased version as the raw version, and a language the same in any case. |
| Selection.Duration | yt_dlp/extractor/funimation.py:207 | `max(duration, fmt.get('duration', 0))` succeeds exactly on a dict whose `duration` is a number or missing (then 0). A `None`, string, list or dict duration raises TypeError. |
| Selection.Label | yt_dlp/extractor/funimation.py:245-250 | A labelled format keeps the downloaded format's id and URL. It takes the experience's language and version as its language and note, the version's source preference and the language's language preference. |
| Selection.CollectFrom | yt_dlp/extractor/funimation.py:200-251 | The loop succeeds exactly when every experience id can be read, and every experience that is not skipped has a comparable duration. Every collected format comes from an experience that was not skipped. Every format downloaded for a non-skipped experience is collected, labelled. |
| Selection.LabelAllContributes | yt_dlp/extractor/funimation.py:243-251 | For a kept experience, each downloaded format appears labelled among its formats, and each of its formats is one of its downloaded formats, labelled. |
| Selection.RequestedFormatsCollected | yt_dlp/extractor/funimation.py:200-251 | Every format downloaded for an experience whose language and version were requested, and which under the compat option is the URL's own experience, ends up among the collected formats with its label. |
| Selection.CollectFormats | yt_dlp/extractor/funimation.py:200-251 | The loop also fails when the experience generator raises. With that added, it keeps the soundness and completeness of CollectFrom. |
| Selection.CollectedFormatsObeyFilters | yt_dlp/extractor/funimation.py:202-205 | Every collected format's language and version are among those requested, when any were requested. |
| Selection.RequireFormats | yt_dlp/extractor/funimation.py:252-254 | The "no video formats matching" error is raised exactly when no format was collected and a language or version was requested. |
| Selection.EpisodeFormats | yt_dlp/extractor/funimation.py:200-254 | An exception from the experience loop is passed on. Otherwise the result is exactly the collected formats, unless none were collected while a language or version was requested, which raises "no video formats matching". |
| Subtitles.AddSub | yt_dlp/extractor/funimation.py:298-299 | `setdefault(key, []).append(sub)` runs only when the entry is not there yet. Other keys are untouched, the entry ends up under the key, and the table only grows and stays duplicate-free. |
| Subtitles.AddSubSound | yt_dlp/extractor/funimation.py:298-299 | The checked append adds nothing but its one entry, under its own key. |
| Subtitles.AddAllGrows | yt_dlp/extractor/funimation.py:284-299 | Filing a list of (key, entry) pairs one after another only grows the table and keeps it well formed. |
| Subtitles.AddAllAppend | yt_dlp/extractor/funimation.py:284-299 | Filing two lists in turn is filing their concatenation. |
| Subtitles.AddAllSound | yt_dlp/extractor/funimation.py:284-299 | Filing a list adds nothing but its listed entries, each under its own key. |
| Subtitles.AddAllFiles | yt_dlp/extractor/funimation.py:284-299 | Every listed entry ends up under its key. |
| Subtitles.AddAllOnly | yt_dlp/extractor/funimation.py:284-299 | After filing a list, every entry of the table was there before or is listed with that key. |
| Subtitles.AddAllExactly | yt_dlp/extractor/funimation.py:284-299 | After filing a list, a key holds an entry exactly when it held it before or the list pairs it with that key. |
| Subtitles.Append | yt_dlp/extractor/funimation.py:299 | Appending puts the entry at the end of its key's list. |
| Subtitles.AppendEntries | yt_dlp/extractor/funimation.py:299 | Appending adds the entry at the end of its key's list and changes no other key. |
| Subtitles.AppendKeys | yt_dlp/extractor/funimation.py:299 | Appending under a new key adds that key last; an existing key keeps the key order. |
| Subtitles.AppendKeepsWellFormed | yt_dlp/extractor/funimation.py:298-299 | Appending an entry that is not yet present keeps keys distinct and lists duplicate-free. |
| Subtitles.GrowsTransitive | yt_dlp/extractor/funimation.py:284-299 | Successive additions compose into append-only growth. |
| Subtitles.SubType | yt_dlp/extractor/funimation.py:289-290 | The subtitle type is `None` exactly when it upper-cases to `FULL`, and otherwise is the upper-cased type. |
| Subtitles.IeKey | yt_dlp/extractor/funimation.py:295-297 | A subtitle key starts with the track language, and is empty when language, version and type are all absent or dropped. |
| Subtitles.IeName | yt_dlp/extractor/funimation.py:293 | A subtitle name starts with the version. |
| Subtitles.IeNameSplits | yt_dlp/extractor/funimation.py:293 | A subtitle name splits at spaces into exactly its truthy parts, in the order version, label, type, when none of them contains a space. |
| Subtitles.IeKeySplits | yt_dlp/extractor/funimation.py:295-297 | A subtitle key splits on `_` into exactly the parts kept: the language, then the version unless it is Simulcast, then the type unless it is FULL. |
| Subtitles.SpecialPartsOmitted | yt_dlp/extractor/funimation.py:295-297 | A Simulcast version contributes nothing to the key. A FULL Simulcast track is keyed by its language alone. |
| Subtitles.AddTextTrack | yt_dlp/extractor/funimation.py:287-299 | A track raises AttributeError exactly when it is not a dict, or when it has a `src` but its `type` is not a string. A track without `src` changes nothing. Otherwise its `{url, name}` is filed under its key, the table only grows, and every other key keeps its list: only the track's own key can change, by that one entry at the end. |
| Subtitles.GrowsKeepsTextTrack | yt_dlp/extractor/funimation.py:284-299 | A filed track stays filed under later additions. |
| Subtitles.AddTextTracks | yt_dlp/extractor/funimation.py:286-299 | The text-track loop raises exactly when some track raises. After it, every track is filed, and the table only grew and stayed well-formed. |
| Subtitles.AddTextTracksIsFiling | yt_dlp/extractor/funimation.py:286-299 | A successful text-track loop leaves exactly the table obtained by filing its tracks' entries in order (a track without `src` has none), so by Subtitles.AddAllExactly it adds nothing else. |
| Subtitles.ListUnder | yt_dlp/extractor/funimation.py:285-286 | `v.get(key)` iterated raises AttributeError on a non-dict, and TypeError on a missing or non-iterable value; otherwise it gives exactly the iteration of the value under the key. |
| Subtitles.GrowsKeepsSource | yt_dlp/extractor/funimation.py:285-299 | A source whose tracks are all filed stays so under later additions. |
| Subtitles.AddSource | yt_dlp/extractor/funimation.py:286-299 | One source raises exactly when it is not a dict, has `textTracks` that cannot be iterated, or has a track that raises. Otherwise every one of its text tracks is filed, the table only grew and stayed well-formed, and the result is exactly its tracks' entries filed in order, so nothing else was added. |
| Subtitles.AddSources | yt_dlp/extractor/funimation.py:285-299 | The source loop raises exactly when some source is not a dict, has `textTracks` that cannot be iterated, or has a track that raises. After it, every text track of every source is filed, and the table only grew and stayed well-formed. |
| Subtitles.AddSourcesIsFiling | yt_dlp/extractor/funimation.py:285-299 | A successful source loop leaves exactly the table obtained by filing the entries of all its sources' tracks in order, so it adds nothing else. |
| Subtitles.GrowsKeepsExperience | yt_dlp/extractor/funimation.py:284-299 | An experience whose tracks are all filed stays so under later additions. |
| Subtitles.AddExperience | yt_dlp/extractor/funimation.py:285-299 | One experience raises exactly when its format is not a dict, has `sources` that cannot be iterated, or has a source that raises. Otherwise every text track under it is filed, the table only grew and stayed well-formed, and the result is exactly those tracks' entries filed in order. |
| Subtitles.AddExperiences | yt_dlp/extractor/funimation.py:284-299 | The experience loop raises exactly when some experience's format is not a dict, has `sources` that cannot be iterated, or has a source that raises. After it, every text track under every experience is filed, and the table only grew and stayed well-formed. |
| Subtitles.AddExperiencesIsFiling | yt_dlp/extractor/funimation.py:284-299 | A successful experience loop leaves exactly the table obtained by filing the entries of every track under every experience in order, so it adds nothing else. |
| Subtitles.EpisodeSubtitles | yt_dlp/extractor/funimation.py:284-300 | The episode's subtitle loop raises exactly when the experience generator raises or some yielded experience raises. After it, every text track with a `src` under every experience is filed; the result is exactly those entries filed in order, and every entry in it was there before or is one of them under its own key. An empty episode adds nothing. |
| Subtitles.FunimationSubtitles | yt_dlp/extractor/funimation.py:277-300 | A given episode is processed directly. An episode id is resolved by the non-fatal lookup, with `{}` in place of `[]`: its exception is passed on, a missing episode adds nothing, and a found one is processed. Every outcome only grows the table. |
| Subtitles.EmptyPageSubtitles | yt_dlp/extractor/funimation.py:277-282 | On a player page whose show data is `{}`, the modelled subtitles step adds nothing, where the lookup as written raises AttributeError. |
| Subtitles.MetaKey | yt_dlp/extractor/funimation.py:373-375 | A playback subtitle key starts with the language code, and a `Simulcast` version leaves no trace in it. |
| Subtitles.MetaName | yt_dlp/extractor/funimation.py:371 | A playback subtitle name starts with the version. |
| Subtitles.MetaKeySplits | yt_dlp/extractor/funimation.py:373-375 | A playback subtitle key splits at `_` into exactly the truthy parts in the order code, version, content type, with a `Simulcast` version dropped, when none of them contains `_`. |
| Subtitles.MetaNameSplits | yt_dlp/extractor/funimation.py:371 | A playback subtitle name splits at `-` into exactly its truthy parts in the order version, language code, content type, when none of them contains `-`. |
| Subtitles.AddMetaTrack | yt_dlp/extractor/funimation.py:366-376 | A playback track raises AttributeError exactly when it is not a dict. Otherwise its entry is filed under its key, where a `Simulcast` version is left out. |
| Subtitles.AddMetaTrackTouchesOneKey | yt_dlp/extractor/funimation.py:366-376 | One playback track changes only its own key's list, and that by at most its one entry at the end. |
| Subtitles.AddMetaTracks | yt_dlp/extractor/funimation.py:366-376 | The loop succeeds exactly when every track is a dict, and otherwise raises AttributeError. The table only grows and stays well-formed. |
| Subtitles.AddMetaTracksIsFiling | yt_dlp/extractor/funimation.py:366-376 | A successful playback loop leaves exactly the table obtained by filing its tracks' entries in order, so it adds nothing else. |
| Subtitles.AddMetaTracksFiles | yt_dlp/extractor/funimation.py:366-376 | After a successful loop, every playback track is filed under its key. |
| Subtitles.GrowsKeepsMetaTrack | yt_dlp/extractor/funimation.py:366-376 | A filed playback track stays filed under later additions. |
| Subtitles.MetaSubtitles | yt_dlp/extractor/funimation.py:365-378 | A falsy playback adds nothing. A truthy one succeeds exactly when it is a dict whose `subtitles` can be iterated and every track is a dict. A non-dict playback raises AttributeError, non-iterable `subtitles` raise TypeError, and a non-dict track raises AttributeError. On success every track is filed, the table only grows, and it holds exactly its old entries and the tracks' entries, each under its own key. |
| Seqs.OrderedSet | yt_dlp/extractor/funimation.py:349 | `orderedSet` keeps exactly the elements of its input, once each, in order of first occurrence. |
| Playlist.InsertPermutes | yt_dlp/extractor/funimation.py:354 | Inserting adds exactly the new item. |
| Playlist.SortBy | yt_dlp/extractor/funimation.py:354 | `sorted(..., key=...)` returns a permutation of its input. |
| Playlist.PassLarger | yt_dlp/extractor/funimation.py:354 | Moving an item past one with a larger key changes no group of equal keys. |
| Playlist.InsertSorted | yt_dlp/extractor/funimation.py:354 | Inserting into a sorted list keeps it sorted. |
| Playlist.InsertWithKey | yt_dlp/extractor/funimation.py:354 | Inserting places the new item after every earlier item with the same key. |
| Playlist.SortBySorted | yt_dlp/extractor/funimation.py:354 | `sorted(..., key=...)` orders by key. |
| Playlist.SortByIsStable | yt_dlp/extractor/funimation.py:354 | The sort is stable: items with equal keys keep their relative order. |
| Playlist.EpisodeOrder | yt_dlp/extractor/funimation.py:354 | A missing `episodeOrder` sorts as -1; a numeric one sorts as its value. |
| Playlist.Dicts | yt_dlp/extractor/funimation.py:354 | The sort key runs on every item, and raises exactly when some item is not a dict. |
| Playlist.OrderedItems | yt_dlp/extractor/funimation.py:354 | Sorting succeeds exactly when every item is a dict and, with two or more items, every order is a number. Its result is a permutation of the items, ordered by `episodeOrder`, with ties kept in their original order. |
| Playlist.EntryOf | yt_dlp/extractor/funimation.py:351-353 | An entry's URL lies under the show's URL, with `None` in place of a missing slug. A missing id or title is `None`. |
| Playlist.OrderedSetInEntryOrder | yt_dlp/extractor/funimation.py:349-354 | Playlist entries come in ascending `episodeOrder` of the items that first produced them. |
| Playlist.EntriesOfPermutation | yt_dlp/extractor/funimation.py:349-354 | The entries built from the sorted items are exactly the entries of the original items. |
| Playlist.ShowEntries | yt_dlp/extractor/funimation.py:349-354 | The playlist has no entry twice and an entry for every item, and nothing else. Entries are in ascending `episodeOrder` of their first-producing item, and entries of equal order come in the order the stably sorted items first produce them. It fails exactly when the sort fails. |
| Playlist.ShowEntriesCover | yt_dlp/extractor/funimation.py:349-354 | After the sort and the deduplication, every item has its entry and every entry belongs to some item. |
| Relabel.AudioLanguages | yt_dlp/extractor/funimation.py:465 | A version the show does not list, or lists with an empty dict, gives nothing to iterate, which raises TypeError. A listed one gives its audio languages. |
| Relabel.EnglishName | yt_dlp/extractor/funimation.py:467 | The new language is the audio language's `name.en`: `None` when it is not a dict or the path is missing, and `None` too in place of an empty dict. |
| Relabel.CodeMatches | yt_dlp/extractor/funimation.py:466 | An audio language matches exactly when it is a dict whose `languageCode` equals the format's language. A non-dict raises AttributeError. |
| Relabel.RelabelFormat | yt_dlp/extractor/funimation.py:462-468 | Only the language changes. It becomes the English name of the first audio language that matches, and stays unchanged when none does. A non-dict before the match raises, and so does a missing list. |
| Relabel.RelabelAll | yt_dlp/extractor/funimation.py:462-468 | Every format is relabelled on its own; the loop fails exactly when one of them raises. |
| Relabel.CapitalizedNoteLooksUpVersion | yt_dlp/extractor/funimation.py:388 | The capitalized note looks up the same entry as the playback's raw version. |
| Relabel.RelabelOfDicts | yt_dlp/extractor/funimation.py:462-468 | When every audio language is a dict, relabelling never raises. It either takes the name of an entry with the format's code, or, when no entry has it, leaves the format alone. |

## Left out

- HTTP downloads, cookies, the login token, the region lookup and the random `pinst_id` are left out. Downloaded data is an input.
- Regular expressions are left out: `_VALID_URL`, the `show = {...};` page search, and the `mostRecent[AS]vod` key filter. `js_to_json` and JSON parsing are left out too. The model starts from parsed values.
- m3u8 manifest extraction and `_remove_duplicate_formats` live outside this file. The formats downloaded for an experience are a parameter.
- Lines 221-242 are abstracted into the `fetched` parameter, which maps an experience id to its formats. These lines read the page's `items`, each source's `src`, and its `videoType` or `determine_ext` of the URL. They take the m3u8 branch or build the `'<experienceId>-<type>'` format id. The exceptions these lines can raise are not modelled, for instance AttributeError on a source that is not a dict. The warnings for a page without sources are left out too.
- Selection.CollectFrom: each downloaded format is kept once. The source's `formats.extend(current_formats)` sits inside the per-source loop, so earlier formats are appended again for every later source. `_remove_duplicate_formats`, which is not part of this model, drops formats whose URL was seen before.
- The rest of `FunimationIE._real_extract` and `FunimationMetaIE._real_extract` is left out:
  - the redirect to the meta extractor;
  - thumbnails, the duration value and the metadata dict (the TypeError the duration comparison raises is modelled);
  - the primary/fallback playback selection and warnings;
  - the call of `extract_subtitles` for each kept experience inside the format loop. A single call is modelled by Subtitles.FunimationSubtitles.

  These are wiring around the modelled parts.
- `FunimationMetaIE.add_format` is left out except for the capitalized version it stores as the format note. Its rankings are the same `qualities` calls modelled in Selection.
- Floats are left out: JSON numbers are integers and booleans.
- `repr`/`str` of strings is simplified: always single-quoted, never escaped.
- Python `==` is modelled as structural equality, except for numbers, where `True == 1`. That exception is applied where the code compares single values: the experience id (line 176), the `Simulcast` version (line 374) and the audio `languageCode` (line 466). The subtitle-entry test (lines 298 and 376) and `orderedSet` (line 350) compare whole entries structurally. So there `{'url': 1}` differs from `{'url': True}`, and two dicts with the same pairs in a different order differ, though Python finds them equal.
- Case mapping covers ASCII letters only.
- `traverse_obj` is modelled for paths of string keys only. Its code is not part of this model. The model follows its documented behaviour: a step that meets a non-dict or a missing key gives `None`, and an empty dict at the end is dropped to `None` as well.
- `join_nonempty`, `qualities` and `orderedSet` are modelled from their documented behaviour. Their code is not part of this model.
- Playlist.OrderedItems: with two or more items, an `episodeOrder` that is not a number is treated as a TypeError. Python would still sort when all such values are strings, comparing them among themselves.
- The requested language and version lists are inputs. `_configuration_arg` hands them over lower-cased, and the model takes them as given.
- `_get_episode` is always called with an episode id or an experience id. The case with neither is not modelled.
- Selection.RequireFormats: the model raises "no video formats matching" whenever the condition holds. The host's `raise_no_formats` only warns when the `ignore_no_formats_error` or `wait_for_video` option is set; those options are not modelled.
- Text.IntStringInjective: the URL's experience id (line 110) is compared at line 202 as its raw digits. It is not `str` of a number, so an id written with leading zeros is found by the lookup (which uses `int()`) but never equals a rendered id. The model takes the URL id as a given string.
- Subtitles.FunimationSubtitles: resolves an episode id with the corrected lookup (Lookup.GetEpisode). As written, line 282 reaches `_get_episode`, which raises AttributeError on any falsy page, for instance show data `{}`. Subtitles.EmptyPageSubtitles shows the two diverge there.

## Findings

| source | as written | input that shows it | evidently intended | confidence | as-written member | corrected member |
|---|---|---|---|---|---|---|
| yt_dlp/extractor/funimation.py:168-169 | A falsy parse result is replaced by `[]`, then `show.get('seasons', [])` is called on it | a player page holding `show = { };`, which parses to `{}`, looked up non-fatally | `or {}`, so that an empty show is reported as "Unable to find episode information" (a warning when non-fatal, then `({}, {}, {})`) | not executed | Lookup.GetEpisodeAsWritten | Lookup.GetEpisode |

=== FILE: experiences.dfy ===
/** `FunimationIE._get_experiences`: the generator that walks an episode's
    `languages -> any -> version -> format` nesting. */
module Experiences {
  import opened Results
  import opened Text
  import opened Json
  import opened Search

  /** One yielded triple: the language key, the title-cased version key, and
      the format object found under it. */
  datatype Experience = Experience(lang: string, version: string, format: Value)

  /** `episode.get('languages', {}).items()` */
  function Languages(episode: Value): (r: Result<seq<(string, Value)>>)
    ensures r.Err? <==> !episode.Obj? || !GetOr(episode.fields, "languages", Obj([])).Obj?
    ensures r.Err? ==> r.error == AttributeError
    ensures r.Ok? ==> r.value == GetOr(episode.fields, "languages", Obj([])).fields
    ensures episode.Obj? && Find(episode.fields, "languages").None? ==> r == Ok([])
  {
    match episode
    case Obj(fields) =>
      (match GetOr(fields, "languages", Obj([]))
       case Obj(langs) => Ok(langs)
       case _ => Err(AttributeError))
    case _ => Err(AttributeError)
  }

  function ValuesOf(fields: seq<(string, Value)>): seq<Value> {
    seq(|fields|, i requires 0 <= i < |fields| => fields[i].1)
  }

  /** The innermost loop `for version, f in video_data.items()`. */
  function VersionsOf(lang: string, video: Value): (r: Stream<Experience>)
    ensures r.fault.None? <==> video.Obj?
    ensures r.fault.Some? ==> r == Stream([], Some(AttributeError))
    ensures video.Obj? ==> |r.items| == |video.fields| && forall c :: 0 <= c < |video.fields| ==>
      r.items[c] == Experience(lang, Title(video.fields[c].0), video.fields[c].1)
  {
    match video
    case Obj(vs) => Stream(VersionTriples(lang, vs), None)
    case _ => Stream([], Some(AttributeError))
  }

  /** The innermost loop as a generator over `video_data`, for one language. */
  function VersionsFor(lang: string): Value -> Stream<Experience> {
    v => VersionsOf(lang, v)
  }

  /** The middle loop `for video_data in lang_data.values()`.  When it raises
      part-way, it has yielded every triple of the videos before the
      offending one. */
  function VideosOf(language: (string, Value)): (r: Stream<Experience>)
    ensures r.fault.None? <==> language.1.Obj? && ShapedVideos(language.1.fields)
    ensures r.fault.Some? ==> r.fault == Some(AttributeError)
    ensures !language.1.Obj? ==> r == Stream([], Some(AttributeError))
    ensures language.1.Obj? && r.fault.Some? ==>
      exists k :: StopsAt(ValuesOf(language.1.fields), VersionsFor(language.0), r, k)
  {
    match language.1
    case Obj(videos) =>
      assert forall b :: 0 <= b < |videos| ==> ValuesOf(videos)[b] == videos[b].1;
      Bind(ValuesOf(videos), VersionsFor(language.0))
    case _ => Stream([], Some(AttributeError))
  }

  /** Everything `_get_experiences(episode)` yields, and whether it raises.
      When a language part-way raises, the triples of every earlier language
      have been yielded, then whatever that language yielded before raising. */
  function ExperienceStream(episode: Value): (r: Stream<Experience>)
    ensures r.fault.None? <==> Shaped(episode)
    ensures Shaped(episode) ==> r.items == AllTriples(Languages(episode).value)
    ensures Languages(episode).Err? ==> r == Stream([], Some(AttributeError))
    ensures Languages(episode).Ok? && r.fault.Some? ==> exists k :: StopsAt(Languages(episode).value, VideosOf, r, k)
    ensures episode.Obj? && Find(episode.fields, "languages").None? ==> r == Stream([], None)
  {
    match Languages(episode)
    case Err(e) => Stream([], Some(e))
    case Ok(langs) =>
      var r := Bind(langs, VideosOf);
      ShapedStream(langs);
      r
  }

  /** Every level below `languages` is a dict, so nothing in the walk raises. */
  ghost predicate ShapedVideos(videos: seq<(string, Value)>) {
    forall b :: 0 <= b < |videos| ==> videos[b].1.Obj?
  }

  ghost predicate ShapedLanguages(langs: seq<(string, Value)>) {
    forall a :: 0 <= a < |langs| ==> langs[a].1.Obj? && ShapedVideos(langs[a].1.fields)
  }

  ghost predicate Shaped(episode: Value) {
    Languages(episode).Ok? && ShapedLanguages(Languages(episode).value)
  }

  /** One triple per version entry of one `video_data`, in dict order. */
  function VersionTriples(lang: string, versions: seq<(string, Value)>): (r: seq<Experience>)
    ensures |r| == |versions|
    ensures forall c :: 0 <= c < |versions| ==> r[c] == Experience(lang, Title(versions[c].0), versions[c].1)
  {
    seq(|versions|, c requires 0 <= c < |versions| => Experience(lang, Title(versions[c].0), versions[c].1))
  }

  /** One language's triples: its videos in dict order, each contributing its versions. */
  ghost function LanguageTriples(lang: string, videos: seq<(string, Value)>): seq<Experience>
    requires ShapedVideos(videos)
  {
    Flatten(seq(|videos|, b requires 0 <= b < |videos| => VersionTriples(lang, videos[b].1.fields)))
  }

  /** The reference flattening: languages in dict order, each contributing its triples. */
  ghost function AllTriples(langs: seq<(string, Value)>): seq<Experience>
    requires ShapedLanguages(langs)
  {
    Flatten(seq(|langs|, a requires 0 <= a < |langs| => LanguageTriples(langs[a].0, langs[a].1.fields)))
  }

  /** The generator raises exactly when some level is not a dict, and otherwise
      yields the reference flattening. */
  lemma ShapedStream(langs: seq<(string, Value)>)
    ensures Bind(langs, VideosOf).fault.None? <==> ShapedLanguages(langs)
    ensures ShapedLanguages(langs) ==> Bind(langs, VideosOf).items == AllTriples(langs)
  {
    forall a | 0 <= a < |langs|
      ensures VideosOf(langs[a]).fault.None? <==> langs[a].1.Obj? && ShapedVideos(langs[a].1.fields)
      ensures langs[a].1.Obj? && ShapedVideos(langs[a].1.fields) ==>
        VideosOf(langs[a]).items == LanguageTriples(langs[a].0, langs[a].1.fields)
    {
      if langs[a].1.Obj? {
        var lang, videos := langs[a].0, langs[a].1.fields;
        var f := VersionsFor(lang);
        assert forall b :: 0 <= b < |videos| ==> ValuesOf(videos)[b] == videos[b].1;
        if ShapedVideos(videos) {
          assert Outputs(ValuesOf(videos), f)
              == seq(|videos|, b requires 0 <= b < |videos| => VersionTriples(lang, videos[b].1.fields));
        }
      }
    }
    if ShapedLanguages(langs) {
      assert Outputs(langs, VideosOf)
          == seq(|langs|, a requires 0 <= a < |langs| => LanguageTriples(langs[a].0, langs[a].1.fields));
    }
  }
}

=== FILE: json.dfy ===
/** JSON values as the extractor sees them after parsing, and the handful of
    Python operations it applies to them.

    Objects keep their key/value pairs in insertion order, the order in which
    a Python dict iterates; a parsed object has distinct keys, and lookups take
    the first pair with the key. Floats are not modelled. */
module Json {
  import opened Results
  import opened Text

  datatype Value =
    | Null
    | Bool(b: bool)
    | Int(i: int)
    | Str(s: string)
    | Arr(items: seq<Value>)
    | Obj(fields: seq<(string, Value)>)

  /** Python truthiness: `None`, `False`, `0`, `''`, `[]` and `{}` are false. */
  predicate Truthy(v: Value) {
    match v
    case Null => false
    case Bool(b) => b
    case Int(i) => i != 0
    case Str(s) => |s| > 0
    case Arr(items) => |items| > 0
    case Obj(fields) => |fields| > 0
  }

  /** The value under the first pair whose key is `key`. */
  function Find(fields: seq<(string, Value)>, key: string): (r: Option<Value>)
    ensures r.None? <==> forall i :: 0 <= i < |fields| ==> fields[i].0 != key
    ensures r.Some? ==> exists i :: 0 <= i < |fields| && fields[i] == (key, r.value)
    decreases |fields|
  {
    if |fields| == 0 then None
    else if fields[0].0 == key then Some(fields[0].1)
    else
      var r := Find(fields[1..], key);
      assert forall i :: 1 <= i < |fields| ==> fields[i] == fields[1..][i - 1];
      r
  }

  /** `d.get(key, default)` on the pairs of a dict. */
  function GetOr(fields: seq<(string, Value)>, key: string, default: Value): Value {
    match Find(fields, key)
    case Some(v) => v
    case None => default
  }

  /** `v.get(key, default)`: only a dict has `get`. */
  function Get(v: Value, key: string, default: Value): (r: Result<Value>)
    ensures r.Ok? <==> v.Obj?
    ensures r.Ok? ==> r.value == GetOr(v.fields, key, default)
    ensures r.Err? ==> r.error == AttributeError
  {
    match v
    case Obj(fields) => Ok(GetOr(fields, key, default))
    case _ => Err(AttributeError)
  }

  /** `v[key]` with a string key. */
  function Subscript(v: Value, key: string): (r: Result<Value>)
    ensures r.Ok? <==> v.Obj? && Find(v.fields, key).Some?
    ensures r.Ok? ==> r.value == Find(v.fields, key).value
    ensures r.Err? ==> r.error == (if v.Obj? then KeyError else TypeError)
  {
    match v
    case Obj(fields) =>
      (match Find(fields, key)
       case Some(x) => Ok(x)
       case None => Err(KeyError))
    case _ => Err(TypeError)
  }

  /** The values a Python `for` loop visits: list items, dict keys, or the
      one-character strings of a string. */
  function Iterate(v: Value): (r: Result<seq<Value>>)
    ensures r.Ok? <==> v.Arr? || v.Obj? || v.Str?
    ensures v.Arr? ==> r == Ok(v.items)
    ensures v.Obj? ==> r.Ok? && |r.value| == |v.fields| && forall i :: 0 <= i < |v.fields| ==> r.value[i] == Str(v.fields[i].0)
    ensures v.Str? ==> r.Ok? && |r.value| == |v.s| && forall i :: 0 <= i < |v.s| ==> r.value[i] == Str([v.s[i]])
    ensures r.Err? ==> r.error == TypeError
  {
    match v
    case Arr(items) => Ok(items)
    case Obj(fields) => Ok(seq(|fields|, i requires 0 <= i < |fields| => Str(fields[i].0)))
    case Str(s) => Ok(seq(|s|, i requires 0 <= i < |s| => Str([s[i]])))
    case _ => Err(TypeError)
  }

  /** `str(v)`. */
  function PyStr(v: Value): string {
    match v
    case Str(s) => s
    case _ => Repr(v)
  }

  /** `repr(v)`, with strings always single-quoted and never escaped. */
  function Repr(v: Value): string
    decreases v, 1, 0
  {
    match v
    case Null => "None"
    case Bool(b) => if b then "True" else "False"
    case Int(i) => IntString(i)
    case Str(s) => "'" + s + "'"
    case Arr(items) => "[" + ReprItems(v, 0) + "]"
    case Obj(fields) => "{" + ReprFields(v, 0) + "}"
  }

  function ReprItems(v: Value, k: nat): string
    requires v.Arr? && k <= |v.items|
    decreases v, 0, |v.items| - k
  {
    if k == |v.items| then ""
    else (if k == 0 then "" else ", ") + Repr(v.items[k]) + ReprItems(v, k + 1)
  }

  function ReprFields(v: Value, k: nat): string
    requires v.Obj? && k <= |v.fields|
    decreases v, 0, |v.fields| - k
  {
    if k == |v.fields| then ""
    else
      assert v.fields[k].1 < v.fields[k] < v;
      (if k == 0 then "" else ", ") + "'" + v.fields[k].0 + "': " + Repr(v.fields[k].1) + ReprFields(v, k + 1)
  }

  /** The number a value stands for in Python arithmetic: `bool` is an `int`. */
  function Number(v: Value): Option<int> {
    match v
    case Int(i) => Some(i)
    case Bool(b) => Some(if b then 1 else 0)
    case _ => None
  }

  /** Python `==` between values: numbers compare by value (`True == 1`), other
      values compare only with values of their own kind. */
  predicate PyEq(a: Value, b: Value) {
    if Number(a).Some? || Number(b).Some? then Number(a) == Number(b) else a == b
  }

  /** The walk `traverse_obj(v, path)` makes for a path of string keys:
      `None` once a step meets a non-dict or a missing key. */
  function TraversePath(v: Value, path: seq<string>): Value
    decreases |path|
  {
    if |path| == 0 then v
    else match v
      case Obj(fields) => TraversePath(GetOr(fields, path[0], Null), path[1..])
      case _ => Null
  }

  /** Walking a path in two pieces is walking it at once: a walk that stops
      early gives `None`, and going on from `None` stays `None`. */
  lemma {:induction false} TraversePathAppend(v: Value, p: seq<string>, q: seq<string>)
    ensures TraversePath(v, p + q) == TraversePath(TraversePath(v, p), q)
    decreases |p|
  {
    if |p| == 0 {
      assert p + q == q;
    } else if v.Obj? {
      assert (p + q)[0] == p[0] && (p + q)[1..] == p[1..] + q;
      TraversePathAppend(GetOr(v.fields, p[0], Null), p[1..], q);
    } else {
      assert |p + q| > 0;
    }
  }

  /** `traverse_obj(v, path)` for a path of string keys: the walk's result,
      except that an empty dict is dropped like a missing value. */
  function TraverseObj(v: Value, path: seq<string>): (r: Value)
    ensures TraversePath(v, path) == Obj([]) ==> r == Null
    ensures TraversePath(v, path) != Obj([]) ==> r == TraversePath(v, path)
    ensures r != Obj([])
  {
    var x := TraversePath(v, path);
    if x == Obj([]) then Null else x
  }

  /** The strings `join_nonempty` joins: `str` of each truthy value, in order. */
  function NonEmptyParts(values: seq<Value>): seq<string>
    decreases |values|
  {
    if |values| == 0 then []
    else Part(values[0]) + NonEmptyParts(values[1..])
  }

  /** The parts are exactly the `str` of the truthy values: every truthy
      value contributes, nothing else does. */
  lemma {:induction false} NonEmptyPartsMembers(values: seq<Value>)
    ensures forall p :: p in NonEmptyParts(values) ==>
      exists i :: 0 <= i < |values| && Truthy(values[i]) && p == PyStr(values[i])
    ensures forall i :: 0 <= i < |values| && Truthy(values[i]) ==> PyStr(values[i]) in NonEmptyParts(values)
    ensures (forall i :: 0 <= i < |values| ==> !Truthy(values[i])) <==> NonEmptyParts(values) == []
    decreases |values|
  {
    if |values| > 0 {
      NonEmptyPartsMembers(values[1..]);
      assert forall i :: 1 <= i < |values| ==> values[i] == values[1..][i - 1];
    }
  }

  /** The contribution of one value to `join_nonempty`. */
  function Part(v: Value): seq<string> {
    if Truthy(v) then [PyStr(v)] else []
  }

  lemma NonEmptyPartsOfThree(a: Value, b: Value, c: Value)
    ensures NonEmptyParts([a, b, c]) == Part(a) + Part(b) + Part(c)
    ensures NonEmptyParts([a]) == Part(a)
  {
    assert [a][1..] == [];
    NonEmptyPartsOfTwo(b, c);
    assert [a, b, c][1..] == [b, c];
  }

  lemma NonEmptyPartsOfTwo(b: Value, c: Value)
    ensures NonEmptyParts([b, c]) == Part(b) + Part(c)
  {
    assert [c][1..] == [];
    assert NonEmptyParts([c]) == Part(c) + [] == Part(c);
    assert [b, c][1..] == [c];
  }

  /** `join_nonempty(*values, delim=delim)`. */
  function JoinNonEmpty(values: seq<Value>, delim: char): string {
    Join(NonEmptyParts(values), delim)
  }

  /** Three values joined: when no part contains the delimiter, splitting the
      result gives back exactly the truthy parts, in order. */
  lemma JoinNonEmptySplits(a: Value, b: Value, c: Value, delim: char)
    requires delim !in PyStr(a) && delim !in PyStr(b) && delim !in PyStr(c)
    requires |Part(a) + Part(b) + Part(c)| > 0
    ensures Split(JoinNonEmpty([a, b, c], delim), delim) == Part(a) + Part(b) + Part(c)
  {
    NonEmptyPartsOfThree(a, b, c);
    var parts := Part(a) + Part(b) + Part(c);
    assert forall i :: 0 <= i < |parts| ==> parts[i] in [PyStr(a), PyStr(b), PyStr(c)];
    SplitJoin(parts, delim);
  }
}

=== FILE: lookup.dfy ===
/** `FunimationIE._get_episode` from the parsed `show` object on: the search
    over seasons and episodes for an episode id or an experience id. */
module Lookup {
  import opened Results
  import opened Json
  import opened Search
  import opened Experiences

  /** What the search is keyed on: `episode_id` when the caller gives one,
      otherwise `experience_id`. */
  datatype Query = ByEpisode(episodeId: string) | ByExperience(experienceId: int)

  /** The returned triple: `(episode, season, show)`, or `({}, {}, {})`. */
  datatype Lookup = Found(episode: Value, season: Value, show: Value) | Missing

  /** The episodes the inner loop visits in a season, when it can visit them. */
  ghost predicate SeasonShaped(season: Value) {
    season.Obj? && Iterate(GetOr(season.fields, "episodes", Arr([]))).Ok?
  }

  ghost function SeasonEpisodeList(season: Value): seq<Value>
    requires SeasonShaped(season)
  {
    Iterate(GetOr(season.fields, "episodes", Arr([]))).value
  }

  /** The inner loop `for episode in season.get('episodes', [])`, paired with its season. */
  function EpisodesOf(season: Value): (r: Stream<(Value, Value)>)
    ensures r.fault.None? <==> SeasonShaped(season)
    ensures r.fault.Some? ==> r.items == [] && r.fault.value == (if season.Obj? then TypeError else AttributeError)
    ensures SeasonShaped(season) ==>
      && |r.items| == |SeasonEpisodeList(season)|
      && forall b :: 0 <= b < |r.items| ==> r.items[b] == (season, SeasonEpisodeList(season)[b])
  {
    match season
    case Obj(fields) =>
      (match Iterate(GetOr(fields, "episodes", Arr([])))
       case Ok(episodes) => Stream(seq(|episodes|, i requires 0 <= i < |episodes| => (season, episodes[i])), None)
       case Err(e) => Stream([], Some(e)))
    case _ => Stream([], Some(AttributeError))
  }

  /** The seasons the outer loop visits: `show.get('seasons', [])`, iterated. */
  ghost function SeasonList(show: Value): Result<seq<Value>>
  {
    if show.Obj? then Iterate(GetOr(show.fields, "seasons", Arr([]))) else Err(AttributeError)
  }

  /** One season's pairs: the season with each of its episodes, in order. */
  ghost function SeasonPairs(season: Value): seq<(Value, Value)>
    requires SeasonShaped(season)
  {
    var episodes := SeasonEpisodeList(season);
    seq(|episodes|, b requires 0 <= b < |episodes| => (season, episodes[b]))
  }

  /** The reference visiting order: season by season, each season's episodes in order. */
  ghost function AllPairs(seasons: seq<Value>): seq<(Value, Value)>
    requires forall a :: 0 <= a < |seasons| ==> SeasonShaped(seasons[a])
  {
    Flatten(seq(|seasons|, a requires 0 <= a < |seasons| => SeasonPairs(seasons[a])))
  }

  /** The (season, episode) pairs in the order the nested loops visit them.
      `.get` on a non-dict show raises AttributeError and iterating a
      `seasons` value that is not a collection raises TypeError; a season
      that is not a dict or whose `episodes` cannot be iterated ends the
      walk with an exception after the pairs visited before it. */
  function SeasonEpisodes(show: Value): (r: Result<Stream<(Value, Value)>>)
    ensures !show.Obj? ==> r == Err(AttributeError)
    ensures r.Err? <==> SeasonList(show).Err?
    ensures r.Err? ==> r.error == SeasonList(show).error
    ensures r.Ok? ==>
      (r.value.fault.None? <==> forall a :: 0 <= a < |SeasonList(show).value| ==> SeasonShaped(SeasonList(show).value[a]))
    ensures r.Ok? && r.value.fault.None? ==> r.value.items == AllPairs(SeasonList(show).value)
    ensures r.Ok? && r.value.fault.Some? ==> exists k :: StopsAt(SeasonList(show).value, EpisodesOf, r.value, k)
  {
    var seasons :- Get(show, "seasons", Arr([]));
    var items :- Iterate(seasons);
    VisitingOrder(items);
    Ok(Bind(items, EpisodesOf))
  }

  /** The nested loops visit the reference order when no season raises. */
  lemma VisitingOrder(seasons: seq<Value>)
    ensures (forall a :: 0 <= a < |seasons| ==> SeasonShaped(seasons[a])) ==>
      Bind(seasons, EpisodesOf).items == AllPairs(seasons)
  {
    if forall a :: 0 <= a < |seasons| ==> SeasonShaped(seasons[a]) {
      forall a | 0 <= a < |seasons|
        ensures Outputs(seasons, EpisodesOf)[a] == SeasonPairs(seasons[a])
      {
        var r := EpisodesOf(seasons[a]);
        assert |r.items| == |SeasonPairs(seasons[a])|;
      }
      assert Outputs(seasons, EpisodesOf) == seq(|seasons|, a requires 0 <= a < |seasons| => SeasonPairs(seasons[a]));
    }
  }

  /** `f.get('experienceId') == experience_id` */
  function HasExperienceId(x: Experience, id: int): (r: Result<bool>)
    ensures r.Err? <==> !x.format.Obj?
    ensures r == Ok(true) <==> x.format.Obj? && Number(GetOr(x.format.fields, "experienceId", Null)) == Some(id)
  {
    var v :- Get(x.format, "experienceId", Null);
    Ok(PyEq(v, Int(id)))
  }

  /** Whether one episode satisfies the query.  An episode-id query reads only
      `episodePk`; an experience-id query runs the experience generator until
      the first experience with that id. */
  function Matches(q: Query, episode: Value): (r: Result<bool>)
    ensures q.ByEpisode? ==>
      (r == Ok(true) <==> episode.Obj? && PyStr(GetOr(episode.fields, "episodePk", Null)) == q.episodeId)
    ensures q.ByEpisode? ==> (r.Err? <==> !episode.Obj?)
    ensures q.ByExperience? ==>
      (r == Ok(true) <==> exists i :: FirstDecided(ExperienceStream(episode).items, x => HasExperienceId(x, q.experienceId), i)
                                    && HasExperienceId(ExperienceStream(episode).items[i], q.experienceId) == Ok(true))
    ensures q.ByExperience? ==>
      (r == Ok(false) <==> AllRejected(ExperienceStream(episode).items, x => HasExperienceId(x, q.experienceId))
                           && ExperienceStream(episode).fault.None?)
    ensures q.ByExperience? && r.Err? ==>
      || (exists i :: FirstDecided(ExperienceStream(episode).items, x => HasExperienceId(x, q.experienceId), i)
                   && !ExperienceStream(episode).items[i].format.Obj?)
      || (AllRejected(ExperienceStream(episode).items, x => HasExperienceId(x, q.experienceId))
          && ExperienceStream(episode).fault == Some(r.error))
  {
    match q
    case ByEpisode(id) =>
      var pk :- Get(episode, "episodePk", Null);
      Ok(PyStr(pk) == id)
    case ByExperience(id) =>
      var test := x => HasExperienceId(x, id);
      var s := ExperienceStream(episode);
      var hit := FirstMatch(s, test);
      FirstDecidedExists(s.items, test);
      if hit.Err? then Err(hit.error) else Ok(hit.value.Some?)
  }

  /** The first (season, episode) pair that satisfies the query, in visiting order. */
  ghost predicate FirstHit(pairs: seq<(Value, Value)>, q: Query, i: int) {
    && 0 <= i < |pairs|
    && Matches(q, pairs[i].1) == Ok(true)
    && forall j :: 0 <= j < i ==> Matches(q, pairs[j].1) == Ok(false)
  }

  /** Every visited pair fails the query and the walk ends without raising. */
  ghost predicate NoneMatch(pairs: Stream<(Value, Value)>, q: Query) {
    && pairs.fault.None?
    && forall j :: 0 <= j < |pairs.items| ==> Matches(q, pairs.items[j].1) == Ok(false)
  }

  /** Every pair is visited, none matches, and no loop raises. */
  ghost predicate NoHit(show: Value, q: Query) {
    SeasonEpisodes(show).Ok? && NoneMatch(SeasonEpisodes(show).value, q)
  }

  /** The nested search loops over the visited pairs, and the not-found
      handling after them. */
  function SearchPairs(pairs: Stream<(Value, Value)>, show: Value, q: Query, fatal: bool): (r: Result<Lookup>)
    ensures r.Ok? && r.value.Found? ==>
      && r.value.show == show
      && exists i :: FirstHit(pairs.items, q, i) && pairs.items[i] == (r.value.season, r.value.episode)
    ensures (exists i :: FirstHit(pairs.items, q, i)) ==> r.Ok? && r.value.Found?
    ensures r == Ok(Missing) <==> !fatal && NoneMatch(pairs, q)
    ensures fatal && NoneMatch(pairs, q) ==> r == Err(EpisodeNotFound)
  {
    SearchFindsFirstHit(pairs, q);
    SearchReachesFirstHit(pairs, q);
    SearchMissesExactly(pairs, q);
    match FirstMatch(pairs, PairTest(q))
    case Err(e) => Err(e)
    case Ok(Some(p)) => Ok(Found(p.1, p.0, show))
    case Ok(None) => if fatal then Err(EpisodeNotFound) else Ok(Missing)
  }

  /** The test the search loops apply to a visited (season, episode) pair. */
  function PairTest(q: Query): ((Value, Value)) -> Result<bool> {
    (p: (Value, Value)) => Matches(q, p.1)
  }

  /** A pair the loops return is the first pair that satisfies the query. */
  lemma SearchFindsFirstHit(pairs: Stream<(Value, Value)>, q: Query)
    ensures FirstMatch(pairs, PairTest(q)).Ok? && FirstMatch(pairs, PairTest(q)).value.Some? ==>
      exists i :: FirstHit(pairs.items, q, i) && pairs.items[i] == FirstMatch(pairs, PairTest(q)).value.value
  {
    var test := PairTest(q);
    FirstDecidedExists(pairs.items, test);
    if i :| FirstDecided(pairs.items, test, i) {
      if test(pairs.items[i]) == Ok(true) {
        assert FirstHit(pairs.items, q, i);
      }
    }
  }

  /** When some pair satisfies the query, the loops return a pair. */
  lemma SearchReachesFirstHit(pairs: Stream<(Value, Value)>, q: Query)
    ensures (exists i :: FirstHit(pairs.items, q, i)) ==>
      FirstMatch(pairs, PairTest(q)).Ok? && FirstMatch(pairs, PairTest(q)).value.Some?
  {
    if i :| FirstHit(pairs.items, q, i) {
      assert FirstDecided(pairs.items, PairTest(q), i);
    }
  }

  /** The loops run out without a result exactly when no pair satisfies the
      query and nothing raises. */
  lemma SearchMissesExactly(pairs: Stream<(Value, Value)>, q: Query)
    ensures FirstMatch(pairs, PairTest(q)) == Ok(None) <==> NoneMatch(pairs, q)
  {
    var test := PairTest(q);
    FirstDecidedExists(pairs.items, test);
    if NoneMatch(pairs, q) {
      assert AllRejected(pairs.items, test);
    }
  }

  /** `_get_episode` from the parsed show on: an exception while reaching the
      seasons ends the search, otherwise the pairs are searched. */
  function SearchShow(show: Value, q: Query, fatal: bool): (r: Result<Lookup>)
    ensures SeasonEpisodes(show).Err? ==> r == Err(SeasonEpisodes(show).error)
    ensures r.Ok? && r.value.Found? ==>
      && r.value.show == show
      && SeasonEpisodes(show).Ok?
      && exists i :: FirstHit(SeasonEpisodes(show).value.items, q, i)
                  && SeasonEpisodes(show).value.items[i] == (r.value.season, r.value.episode)
    ensures SeasonEpisodes(show).Ok? && (exists i :: FirstHit(SeasonEpisodes(show).value.items, q, i)) ==>
      r.Ok? && r.value.Found?
    ensures r == Ok(Missing) <==> !fatal && NoHit(show, q)
    ensures fatal && NoHit(show, q) ==> r == Err(EpisodeNotFound)
  {
    match SeasonEpisodes(show)
    case Err(e) => Err(e)
    case Ok(pairs) => SearchPairs(pairs, show, q, fatal)
  }

  /** `_get_episode` as written: a falsy parse result is replaced by `[]`, whose
      missing `get` method then raises. */
  function GetEpisodeAsWritten(parsed: Value, q: Query, fatal: bool): (r: Result<Lookup>)
    ensures !Truthy(parsed) ==> r == Err(AttributeError)
  {
    SearchShow(if Truthy(parsed) then parsed else Arr([]), q, fatal)
  }

  /** `_get_episode` with the evidently intended `{}` in place of `[]`: a falsy
      parse result is an empty show, reported as not found. */
  function GetEpisode(parsed: Value, q: Query, fatal: bool): (r: Result<Lookup>)
    ensures !Truthy(parsed) ==> r == (if fatal then Err(EpisodeNotFound) else Ok(Missing))
    ensures Truthy(parsed) ==> r == SearchShow(parsed, q, fatal)
  {
    var show := if Truthy(parsed) then parsed else Obj([]);
    assert !Truthy(parsed) ==> NoHit(show, q);
    SearchShow(show, q, fatal)
  }

  /** The two definitions part ways on the show data `{}`: as written the
      non-fatal lookup raises, where a warning and `({}, {}, {})` were meant. */
  lemma EmptyShowDiscrepancy(q: Query)
    ensures GetEpisodeAsWritten(Obj([]), q, false) == Err(AttributeError)
    ensures GetEpisode(Obj([]), q, false) == Ok(Missing)
  {
  }
}

=== FILE: playlist.dfy ===
/** `FunimationShowIE._real_extract` after the downloads: the show's VOD items
    sorted by `episodeOrder` and turned into duplicate-free playlist entries. */
module Playlist {
  import opened Results
  import opened Json
  import opened Seqs

  type Fields = seq<(string, Value)>

  // ---------------------------------------------------------------------
  // Python's `sorted(xs, key=...)`: a stable sort, here by insertion

  ghost predicate SortedBy<T>(xs: seq<T>, key: T -> int) {
    forall i, j :: 0 <= i < j < |xs| ==> key(xs[i]) <= key(xs[j])
  }

  /** The items whose key is `k`, in their order. */
  function WithKey<T>(xs: seq<T>, key: T -> int, k: int): seq<T>
    decreases |xs|
  {
    if |xs| == 0 then []
    else WithKey(xs[..|xs| - 1], key, k) + (if key(xs[|xs| - 1]) == k then [xs[|xs| - 1]] else [])
  }

  lemma {:induction false} WithKeyAppend<T>(a: seq<T>, b: seq<T>, key: T -> int, k: int)
    ensures WithKey(a + b, key, k) == WithKey(a, key, k) + WithKey(b, key, k)
    decreases |b|
  {
    if |b| > 0 {
      var n := |b| - 1;
      assert (a + b)[..|a + b| - 1] == a + b[..n];
      WithKeyAppend(a, b[..n], key, k);
    } else {
      assert a + b == a;
    }
  }

  /** Place `x` after every item whose key is at most its own. */
  function Insert<T>(ys: seq<T>, x: T, key: T -> int): seq<T>
    decreases |ys|
  {
    if |ys| == 0 then [x]
    else
      var n := |ys| - 1;
      if key(ys[n]) <= key(x) then ys + [x]
      else Insert(ys[..n], x, key) + [ys[n]]
  }

  /** Inserting adds exactly `x`. */
  lemma {:induction false} InsertPermutes<T>(ys: seq<T>, x: T, key: T -> int)
    ensures multiset(Insert(ys, x, key)) == multiset(ys) + multiset{x}
    decreases |ys|
  {
    if |ys| > 0 {
      var n := |ys| - 1;
      if key(ys[n]) > key(x) {
        assert ys == ys[..n] + [ys[n]];
        InsertPermutes(ys[..n], x, key);
      }
    }
  }

  lemma {:induction false} InsertSorted<T>(ys: seq<T>, x: T, key: T -> int)
    requires SortedBy(ys, key)
    ensures SortedBy(Insert(ys, x, key), key)
    decreases |ys|
  {
    if |ys| > 0 {
      var n := |ys| - 1;
      if key(ys[n]) > key(x) {
        var front := ys[..n];
        InsertSorted(front, x, key);
        InsertPermutes(front, x, key);
        var mid := Insert(front, x, key);
        forall i | 0 <= i < |mid|
          ensures key(mid[i]) <= key(ys[n])
        {
          assert mid[i] in multiset(mid);
          assert mid[i] == x || mid[i] in front;
        }
        assert Insert(ys, x, key) == mid + [ys[n]];
      }
    }
  }

  lemma WithKeySingle<T>(x: T, key: T -> int, k: int)
    ensures WithKey([x], key, k) == if key(x) == k then [x] else []
  {
    assert [x][..0] == [];
  }

  lemma {:induction false} InsertWithKey<T>(ys: seq<T>, x: T, key: T -> int, k: int)
    ensures WithKey(Insert(ys, x, key), key, k) == WithKey(ys, key, k) + WithKey([x], key, k)
    decreases |ys|
  {
    if |ys| == 0 {
      WithKeySingle(x, key, k);
    } else {
      var n := |ys| - 1;
      if key(ys[n]) <= key(x) {
        WithKeyAppend(ys, [x], key, k);
      } else {
        var front, last := ys[..n], ys[n];
        assert ys == front + [last];
        InsertWithKey(front, x, key, k);
        PassLarger(front, Insert(front, x, key), last, x, key, k);
      }
    }
  }

  /** `x` passes an item with a larger key without changing any key group. */
  lemma PassLarger<T>(front: seq<T>, mid: seq<T>, last: T, x: T, key: T -> int, k: int)
    requires key(last) > key(x)
    requires WithKey(mid, key, k) == WithKey(front, key, k) + WithKey([x], key, k)
    ensures WithKey(mid + [last], key, k) == WithKey(front + [last], key, k) + WithKey([x], key, k)
  {
    WithKeyAppend(mid, [last], key, k);
    WithKeyAppend(front, [last], key, k);
    WithKeySingle(x, key, k);
    WithKeySingle(last, key, k);
    var gf, gx, gl := WithKey(front, key, k), WithKey([x], key, k), WithKey([last], key, k);
    assert gx == [] || gl == [];
    assert gf + gx + gl == gf + gl + gx;
  }

  /** `sorted(xs, key=key)`: a permutation of `xs`. */
  function SortBy<T>(xs: seq<T>, key: T -> int): (r: seq<T>)
    ensures multiset(r) == multiset(xs)
    decreases |xs|
  {
    if |xs| == 0 then []
    else
      var n := |xs| - 1;
      var front := SortBy(xs[..n], key);
      assert xs == xs[..n] + [xs[n]];
      InsertPermutes(front, xs[n], key);
      Insert(front, xs[n], key)
  }

  lemma {:induction false} SortBySorted<T>(xs: seq<T>, key: T -> int)
    ensures SortedBy(SortBy(xs, key), key)
    decreases |xs|
  {
    if |xs| > 0 {
      var n := |xs| - 1;
      SortBySorted(xs[..n], key);
      InsertSorted(SortBy(xs[..n], key), xs[n], key);
    }
  }

  /** The sort orders by key, and is stable: the items with any one key keep
      the order they had. */
  lemma {:induction false} SortByIsStable<T>(xs: seq<T>, key: T -> int, k: int)
    ensures SortedBy(SortBy(xs, key), key)
    ensures WithKey(SortBy(xs, key), key, k) == WithKey(xs, key, k)
    decreases |xs|
  {
    SortBySorted(xs, key);
    if |xs| > 0 {
      var n := |xs| - 1;
      SortByIsStable(xs[..n], key, k);
      SortBySorted(xs[..n], key);
      InsertWithKey(SortBy(xs[..n], key), xs[n], key, k);
      WithKeySingle(xs[n], key, k);
    }
  }

  // ---------------------------------------------------------------------
  // The show's items

  /** `x.get('episodeOrder', -1)` as a number.  A value that is not a number
      is only ever taken here for a list of fewer than two items, which the
      sort never compares, so its stand-in 0 is never observed. */
  function EpisodeOrder(item: Fields): (r: int)
    ensures Find(item, "episodeOrder").None? ==> r == -1
    ensures Number(GetOr(item, "episodeOrder", Int(-1))).Some? ==> r == Number(GetOr(item, "episodeOrder", Int(-1))).value
  {
    match Number(GetOr(item, "episodeOrder", Int(-1)))
    case Some(n) => n
    case None => 0
  }

  /** Calling the sort key on every item in turn: each must be a dict. */
  function Dicts(items: seq<Value>): (r: Result<seq<Fields>>)
    ensures r.Ok? <==> forall i :: 0 <= i < |items| ==> items[i].Obj?
    ensures r.Ok? ==> |r.value| == |items| && forall i :: 0 <= i < |items| ==> r.value[i] == items[i].fields
    decreases |items|
  {
    if |items| == 0 then Ok([])
    else
      var rest :- Dicts(items[1..]);
      assert forall i :: 1 <= i < |items| ==> items[i] == items[1..][i - 1];
      match items[0]
      case Obj(fields) => Ok([fields] + rest)
      case _ => Err(AttributeError)
  }

  /** Every item's order is a number Python can compare. */
  predicate Comparable(dicts: seq<Fields>) {
    forall i | 0 <= i < |dicts| :: Number(GetOr(dicts[i], "episodeOrder", Int(-1))).Some?
  }

  /** `sorted(vod_items, key=lambda x: x.get('episodeOrder', -1))` */
  function OrderedItems(items: seq<Value>): (r: Result<seq<Fields>>)
    ensures r.Ok? <==> Dicts(items).Ok? && (|items| < 2 || Comparable(Dicts(items).value))
    ensures r.Ok? ==> multiset(r.value) == multiset(Dicts(items).value)
    ensures r.Ok? ==> SortedBy(r.value, EpisodeOrder)
    ensures r.Ok? ==> forall k :: WithKey(r.value, EpisodeOrder, k) == WithKey(Dicts(items).value, EpisodeOrder, k)
  {
    var dicts :- Dicts(items);
    if |dicts| >= 2 && !Comparable(dicts) then Err(TypeError)
    else
      SortBySorted(dicts, EpisodeOrder);
      StableOn(dicts);
      Ok(SortBy(dicts, EpisodeOrder))
  }

  lemma StableOn(dicts: seq<Fields>)
    ensures forall k :: WithKey(SortBy(dicts, EpisodeOrder), EpisodeOrder, k) == WithKey(dicts, EpisodeOrder, k)
  {
    forall k ensures WithKey(SortBy(dicts, EpisodeOrder), EpisodeOrder, k) == WithKey(dicts, EpisodeOrder, k) {
      SortByIsStable(dicts, EpisodeOrder, k);
    }
  }

  /** One `url_result(f'{base_url}/{slug}', ..., episodeId, episodeName)`;
      an absent id or title is `Null`. */
  datatype Entry = Entry(url: string, id: Value, title: Value)

  /** The entry for one item: its URL lies under the show's URL, with `None`
      in place of a missing slug, and a missing id or title is `None`. */
  function EntryOf(baseUrl: string, item: Fields): (e: Entry)
    ensures baseUrl + "/" <= e.url
    ensures Find(item, "episodeSlug").None? ==> e.url == baseUrl + "/None"
    ensures Find(item, "episodeId").None? ==> e.id == Null
    ensures Find(item, "episodeName").None? ==> e.title == Null
  {
    Entry(baseUrl + "/" + PyStr(GetOr(item, "episodeSlug", Null)), GetOr(item, "episodeId", Null), GetOr(item, "episodeName", Null))
  }

  function EntriesOf(baseUrl: string, items: seq<Fields>): (es: seq<Entry>)
    ensures |es| == |items|
    ensures forall i :: 0 <= i < |items| ==> es[i] == EntryOf(baseUrl, items[i])
  {
    seq(|items|, i requires 0 <= i < |items| => EntryOf(baseUrl, items[i]))
  }

  /** The order of the first sorted item that produced entry `e`. */
  ghost function EntryOrder(baseUrl: string, ordered: seq<Fields>, e: Entry): int
    requires e in EntriesOf(baseUrl, ordered)
  {
    EpisodeOrder(ordered[FirstIndex(EntriesOf(baseUrl, ordered), e)])
  }

  /** `r` lists entries of `ordered` by ascending `EntryOrder`. */
  ghost predicate InEntryOrder(baseUrl: string, ordered: seq<Fields>, r: seq<Entry>) {
    forall i, j :: 0 <= i < j < |r| ==>
      r[i] in EntriesOf(baseUrl, ordered) && r[j] in EntriesOf(baseUrl, ordered) &&
      EntryOrder(baseUrl, ordered, r[i]) <= EntryOrder(baseUrl, ordered, r[j])
  }

  lemma OrderedSetInEntryOrder(baseUrl: string, ordered: seq<Fields>)
    requires SortedBy(ordered, EpisodeOrder)
    ensures InEntryOrder(baseUrl, ordered, OrderedSet(EntriesOf(baseUrl, ordered)))
  {
    var es := EntriesOf(baseUrl, ordered);
    var r := OrderedSet(es);
    forall i, j | 0 <= i < j < |r|
      ensures EntryOrder(baseUrl, ordered, r[i]) <= EntryOrder(baseUrl, ordered, r[j])
    {
      var a, b := FirstIndex(es, r[i]), FirstIndex(es, r[j]);
      assert a < b;
    }
  }

  /** Entries from a permutation of the items are exactly the items' entries. */
  lemma EntriesOfPermutation(baseUrl: string, dicts: seq<Fields>, ordered: seq<Fields>, r: seq<Entry>)
    requires multiset(ordered) == multiset(dicts)
    requires forall i :: 0 <= i < |r| ==> r[i] in EntriesOf(baseUrl, ordered)
    requires forall i :: 0 <= i < |ordered| ==> EntriesOf(baseUrl, ordered)[i] in r
    ensures forall i :: 0 <= i < |dicts| ==> EntryOf(baseUrl, dicts[i]) in r
    ensures forall e :: e in r ==> exists i :: 0 <= i < |dicts| && e == EntryOf(baseUrl, dicts[i])
  {
    var es := EntriesOf(baseUrl, ordered);
    forall i | 0 <= i < |dicts|
      ensures EntryOf(baseUrl, dicts[i]) in r
    {
      assert dicts[i] in multiset(ordered);
      var k :| 0 <= k < |ordered| && ordered[k] == dicts[i];
      assert es[k] in r;
    }
    forall e | e in r
      ensures exists i :: 0 <= i < |dicts| && e == EntryOf(baseUrl, dicts[i])
    {
      var k :| 0 <= k < |es| && es[k] == e;
      assert ordered[k] in multiset(dicts);
      var i :| 0 <= i < |dicts| && dicts[i] == ordered[k];
    }
  }

  /** The playlist's entries: no entry twice, one for every item, and in
      ascending `episodeOrder` (missing counting as -1) of the item that
      first produced each; entries of equal order keep the order in which
      the stably sorted items first produce them. */
  function ShowEntries(baseUrl: string, items: seq<Value>): (r: Result<seq<Entry>>)
    ensures r.Ok? <==> OrderedItems(items).Ok?
    ensures r.Ok? ==> DupFree(r.value)
    ensures r.Ok? ==> forall i :: 0 <= i < |items| ==> EntryOf(baseUrl, items[i].fields) in r.value
    ensures r.Ok? ==> forall e :: e in r.value ==> exists i :: 0 <= i < |items| && e == EntryOf(baseUrl, items[i].fields)
    ensures r.Ok? ==> InEntryOrder(baseUrl, OrderedItems(items).value, r.value)
    ensures r.Ok? ==> forall i :: 0 <= i < |r.value| ==> r.value[i] in EntriesOf(baseUrl, OrderedItems(items).value)
    ensures r.Ok? ==> forall i, j :: 0 <= i < j < |r.value| ==>
      FirstIndex(EntriesOf(baseUrl, OrderedItems(items).value), r.value[i]) <
      FirstIndex(EntriesOf(baseUrl, OrderedItems(items).value), r.value[j])
  {
    var ordered :- OrderedItems(items);
    ShowEntriesCover(baseUrl, items);
    OrderedSetInEntryOrder(baseUrl, ordered);
    Ok(OrderedSet(EntriesOf(baseUrl, ordered)))
  }

  /** Deduplicating the sorted items' entries keeps one entry per item and
      nothing else. */
  lemma ShowEntriesCover(baseUrl: string, items: seq<Value>)
    requires OrderedItems(items).Ok?
    ensures var r := OrderedSet(EntriesOf(baseUrl, OrderedItems(items).value));
      && (forall i :: 0 <= i < |items| ==> EntryOf(baseUrl, items[i].fields) in r)
      && (forall e :: e in r ==> exists i :: 0 <= i < |items| && e == EntryOf(baseUrl, items[i].fields))
  {
    var ordered := OrderedItems(items).value;
    var dicts := Dicts(items).value;
    var r := OrderedSet(EntriesOf(baseUrl, ordered));
    EntriesOfPermutation(baseUrl, dicts, ordered, r);
    forall i | 0 <= i < |items|
      ensures EntryOf(baseUrl, items[i].fields) in r
    {
      assert dicts[i] == items[i].fields;
    }
    forall e | e in r
      ensures exists i :: 0 <= i < |items| && e == EntryOf(baseUrl, items[i].fields)
    {
      var i :| 0 <= i < |dicts| && e == EntryOf(baseUrl, dicts[i]);
      assert dicts[i] == items[i].fields;
    }
  }
}

=== FILE: relabel.dfy ===
/** `FunimationMetaIE._real_extract`, after the formats are built: each
    format's language code is replaced by the English name of the first
    audio language the show lists for the format's version with that code. */
module Relabel {
  import opened Results
  import opened Text
  import opened Json
  import opened Search
  import opened Selection

  /** `('videoOptions', 'languageByVersion', version.lower(), 'audioLanguages')` */
  function AudioPath(note: string): (p: seq<string>)
    ensures |p| == 4 && p[2] == Lower(note)
  {
    ["videoOptions", "languageByVersion", Lower(note), "audioLanguages"]
  }

  /** The loop's iterable: iterating what the traversal found, which raises
      `TypeError` when it found nothing. */
  function AudioLanguages(showInfo: Value, note: string): (r: Result<seq<Value>>)
    ensures TraversePath(showInfo, AudioPath(note)).Null? ==> r == Err(TypeError)
    ensures TraversePath(showInfo, AudioPath(note)) == Obj([]) ==> r == Err(TypeError)
    ensures TraversePath(showInfo, AudioPath(note)).Arr? ==> r == Ok(TraversePath(showInfo, AudioPath(note)).items)
  {
    Iterate(TraverseObj(showInfo, AudioPath(note)))
  }

  /** `langCode == al.get('languageCode')`; `get` fails on a non-dict. */
  function CodeMatches(langCode: Value, al: Value): (r: Result<bool>)
    ensures r.Err? <==> !al.Obj?
    ensures r.Err? ==> r.error == AttributeError
    ensures al.Obj? ==> (r == Ok(true) <==> PyEq(langCode, GetOr(al.fields, "languageCode", Null)))
  {
    match al
    case Obj(fields) => Ok(PyEq(langCode, GetOr(fields, "languageCode", Null)))
    case _ => Err(AttributeError)
  }

  function CodeTest(langCode: Value): Value -> Result<bool> {
    al => CodeMatches(langCode, al)
  }

  /** `traverse_obj(al, ('name', 'en'))`: an empty dict found there reads as `None`. */
  function EnglishName(al: Value): (r: Value)
    ensures r != Obj([])
    ensures al.Obj? && GetOr(al.fields, "name", Null).Obj? ==>
      r == (var en := GetOr(GetOr(al.fields, "name", Null).fields, "en", Null); if en == Obj([]) then Null else en)
    ensures !al.Obj? ==> r == Null
  {
    TraverseObj(al, ["name", "en"])
  }

  /** One format through the loop.  Only its language can change: it becomes
      the English name of the first audio language whose code equals it, and
      stays as it was when none does; a missing list or a non-dict entry
      reached before the match is an error. */
  function RelabelFormat(showInfo: Value, f: Format): (r: Result<Format>)
    ensures AudioLanguages(showInfo, f.note).Err? ==> r == Err(TypeError)
    ensures r.Ok? ==> r.value.(language := f.language) == f
    ensures AudioLanguages(showInfo, f.note).Ok? ==>
      var als := AudioLanguages(showInfo, f.note).value;
      && (forall i :: FirstDecided(als, CodeTest(f.language), i) ==>
            r == (if als[i].Obj? then Ok(f.(language := EnglishName(als[i]))) else Err(AttributeError)))
      && (AllRejected(als, CodeTest(f.language)) ==> r == Ok(f))
  {
    var als :- AudioLanguages(showInfo, f.note);
    var hit :- FirstMatch(Stream(als, None), CodeTest(f.language));
    match hit
    case None => Ok(f)
    case Some(al) => Ok(f.(language := EnglishName(al)))
  }

  /** The relabelling of every format, stopping at the first that raises. */
  function RelabelAll(showInfo: Value, fs: seq<Format>): (r: Result<seq<Format>>)
    ensures r.Ok? <==> forall i :: 0 <= i < |fs| ==> RelabelFormat(showInfo, fs[i]).Ok?
    ensures r.Ok? ==> |r.value| == |fs| && forall i :: 0 <= i < |fs| ==> RelabelFormat(showInfo, fs[i]) == Ok(r.value[i])
    decreases |fs|
  {
    if |fs| == 0 then Ok([])
    else
      var g :- RelabelFormat(showInfo, fs[0]);
      var rest :- RelabelAll(showInfo, fs[1..]);
      assert forall i :: 1 <= i < |fs| ==> fs[i] == fs[1..][i - 1];
      Ok([g] + rest)
  }

  /** A format's note is the playback's version capitalized; the lookup
      lower-cases it again, so it reads the entry of the version as given in
      any letter case. */
  lemma CapitalizedNoteLooksUpVersion(showInfo: Value, version: string)
    ensures AudioLanguages(showInfo, Capitalize(version)) == AudioLanguages(showInfo, version)
  {
    LowerOfCapitalize(version);
    assert AudioPath(Capitalize(version)) == AudioPath(version);
  }

  /** When every listed audio language is a dict, the loop never raises: it
      either relabels from the first entry with the format's code or leaves
      the format alone when no entry has that code. */
  lemma RelabelOfDicts(showInfo: Value, f: Format)
    requires AudioLanguages(showInfo, f.note).Ok?
    requires forall i :: 0 <= i < |AudioLanguages(showInfo, f.note).value| ==> AudioLanguages(showInfo, f.note).value[i].Obj?
    ensures RelabelFormat(showInfo, f).Ok?
    ensures var als := AudioLanguages(showInfo, f.note).value;
      || (RelabelFormat(showInfo, f) == Ok(f) &&
          forall i :: 0 <= i < |als| ==> !PyEq(f.language, GetOr(als[i].fields, "languageCode", Null)))
      || exists i :: 0 <= i < |als| && PyEq(f.language, GetOr(als[i].fields, "languageCode", Null)) &&
           RelabelFormat(showInfo, f) == Ok(f.(language := EnglishName(als[i])))
  {
    var als := AudioLanguages(showInfo, f.note).value;
    var test := CodeTest(f.language);
    FirstDecidedExists(als, test);
    if AllRejected(als, test) {
      assert forall i :: 0 <= i < |als| ==> test(als[i]) == Ok(false);
    } else {
      var i :| FirstDecided(als, test, i);
      assert 0 <= i < |als| && test(als[i]) != Ok(false);
    }
  }
}

=== FILE: results.dfy ===
/** Failure-compatible wrappers shared by every module of the model.

    The extractor is Python: where it would raise, the model returns `Err`
    carrying the kind of exception, so malformed responses are an outcome of
    the model rather than something its callers must rule out. */
module Results {

  datatype Option<+T> = None | Some(value: T)

  /** The exceptions the modelled code can raise. */
  datatype Error =
    | AttributeError     // `.get`, `.items`, `.values` on a non-dict, `.upper` on a non-string
    | TypeError          // iterating a non-iterable, subscripting a non-dict, comparing incomparable sort keys
    | KeyError           // `d[key]` with the key absent
    | EpisodeNotFound    // 'Unable to find episode information'
    | NoMatchingFormats  // 'There are no video formats matching the requested languages/versions'

  datatype Result<+T> = Ok(value: T) | Err(error: Error) {

    predicate IsFailure() {
      Err?
    }

    function PropagateFailure<U>(): Result<U>
      requires Err?
    {
      Err(error)
    }

    function Extract(): T
      requires Ok?
    {
      value
    }
  }
}

=== FILE: search.dfy ===
/** Python generators that may raise, and the first-match loops run over them.

    A `Stream` is what a generator produces when driven to the end: the items
    it yielded, then either normal exhaustion or the exception it raised. */
module Search {
  import opened Results

  datatype Stream<T> = Stream(items: seq<T>, fault: Option<Error>)

  /** All items of the inner sequences, in order. */
  function Flatten<T>(xss: seq<seq<T>>): seq<T>
    decreases |xss|
  {
    if |xss| == 0 then [] else xss[0] + Flatten(xss[1..])
  }

  /** Running one generator and then another: a raise in the first ends everything. */
  function Concat<T>(a: Stream<T>, b: Stream<T>): Stream<T> {
    if a.fault.Some? then a else Stream(a.items + b.items, b.fault)
  }

  /** What each inner generator would yield if it were driven to the end. */
  function Outputs<A, B>(xs: seq<A>, f: A -> Stream<B>): seq<seq<B>> {
    seq(|xs|, i requires 0 <= i < |xs| => f(xs[i]).items)
  }

  /** The nested loop stopped in inner generator `k`: every earlier one ran
      to the end, and `r` holds their outputs, then whatever generator `k`
      yielded before raising, and its exception. */
  ghost predicate StopsAt<A, B>(xs: seq<A>, f: A -> Stream<B>, r: Stream<B>, k: int) {
    && 0 <= k < |xs|
    && (forall i :: 0 <= i < k ==> f(xs[i]).fault.None?)
    && f(xs[k]).fault.Some?
    && r.fault == f(xs[k]).fault
    && r.items == Flatten(Outputs(xs[..k], f)) + f(xs[k]).items
  }

  /** A nested `for x in xs: yield from f(x)`. */
  function Bind<A, B>(xs: seq<A>, f: A -> Stream<B>): (r: Stream<B>)
    ensures r.fault.None? <==> forall i :: 0 <= i < |xs| ==> f(xs[i]).fault.None?
    ensures r.fault.None? ==> r.items == Flatten(Outputs(xs, f))
    ensures r.fault.Some? ==> exists k :: StopsAt(xs, f, r, k)
    ensures r.items <= Flatten(Outputs(xs, f))
    decreases |xs|
  {
    if |xs| == 0 then Stream([], None)
    else
      var rest := Bind(xs[1..], f);
      assert Outputs(xs, f) == [f(xs[0]).items] + Outputs(xs[1..], f);
      assert forall i :: 1 <= i < |xs| ==> xs[i] == xs[1..][i - 1];
      BindStep(xs, f, rest);
      Concat(f(xs[0]), rest)
  }

  /** One step of the nested loop: where the rest of it stops, the whole loop
      stops one generator later, unless the first one already raised. */
  lemma BindStep<A, B>(xs: seq<A>, f: A -> Stream<B>, rest: Stream<B>)
    requires |xs| > 0
    requires rest.fault.Some? ==> exists k :: StopsAt(xs[1..], f, rest, k)
    ensures Concat(f(xs[0]), rest).fault.Some? ==> exists k :: StopsAt(xs, f, Concat(f(xs[0]), rest), k)
  {
    var r := Concat(f(xs[0]), rest);
    if f(xs[0]).fault.Some? {
      assert Outputs(xs[..0], f) == [];
      assert StopsAt(xs, f, r, 0);
    } else if rest.fault.Some? {
      var k :| StopsAt(xs[1..], f, rest, k);
      assert xs[..k + 1] == [xs[0]] + xs[1..][..k];
      assert Outputs(xs[..k + 1], f) == [f(xs[0]).items] + Outputs(xs[1..][..k], f);
      assert forall i :: 1 <= i <= k ==> xs[i] == xs[1..][i - 1];
      assert StopsAt(xs, f, r, k + 1);
    }
  }

  /** Position `i` holds the first item, from position `k` on, whose test does
      not answer `false`. */
  ghost predicate FirstDecidedFrom<T>(items: seq<T>, test: T -> Result<bool>, k: int, i: int) {
    && 0 <= k <= i < |items|
    && test(items[i]) != Ok(false)
    && forall j :: k <= j < i ==> test(items[j]) == Ok(false)
  }

  ghost predicate FirstDecided<T>(items: seq<T>, test: T -> Result<bool>, i: int) {
    FirstDecidedFrom(items, test, 0, i)
  }

  /** Every item's test, from position `k` on, answers `false`. */
  ghost predicate RejectedFrom<T>(items: seq<T>, test: T -> Result<bool>, k: int) {
    forall j :: k <= j < |items| ==> 0 <= j && test(items[j]) == Ok(false)
  }

  ghost predicate AllRejected<T>(items: seq<T>, test: T -> Result<bool>) {
    RejectedFrom(items, test, 0)
  }

  /** What a loop does once an item's test has answered: return the item, move
      on, or let the exception through. */
  function Decide<T>(answer: Result<bool>, x: T): Result<Option<T>> {
    match answer
    case Ok(b) => if b then Ok(Some(x)) else Ok(None)
    case Err(e) => Err(e)
  }

  /** The loop `for x in s: if test(x): return x` from position `k` on. */
  function FirstMatchFrom<T>(s: Stream<T>, test: T -> Result<bool>, k: nat): (r: Result<Option<T>>)
    requires k <= |s.items|
    ensures forall i :: FirstDecidedFrom(s.items, test, k, i) ==> r == Decide(test(s.items[i]), s.items[i])
    ensures RejectedFrom(s.items, test, k) ==> r == (if s.fault.None? then Ok(None) else Err(s.fault.value))
    decreases |s.items| - k
  {
    if k == |s.items| then
      (if s.fault.None? then Ok(None) else Err(s.fault.value))
    else
      match test(s.items[k])
      case Ok(true) => Ok(Some(s.items[k]))
      case Err(e) => Err(e)
      case Ok(false) =>
        assert forall i :: FirstDecidedFrom(s.items, test, k, i) ==> FirstDecidedFrom(s.items, test, k + 1, i);
        FirstMatchFrom(s, test, k + 1)
  }

  /** The loop `for x in s: if test(x): return x`, where `test` may raise and
      the generator may raise once its yielded items are used up.  The first
      item whose test does not answer `false` decides the outcome; if there is
      none, the generator's own ending does. */
  function FirstMatch<T>(s: Stream<T>, test: T -> Result<bool>): (r: Result<Option<T>>)
    ensures forall i :: FirstDecided(s.items, test, i) ==> r == Decide(test(s.items[i]), s.items[i])
    ensures AllRejected(s.items, test) ==>
      r == (if s.fault.None? then Ok(None) else Err(s.fault.value))
  {
    FirstMatchFrom(s, test, 0)
  }

  /** Either every test answers `false` or some first item decides. */
  lemma FirstDecidedExists<T>(items: seq<T>, test: T -> Result<bool>)
    ensures AllRejected(items, test) || exists i :: FirstDecided(items, test, i)
  {
    if AllRejected(items, test) {
      return;
    }
    var i :| 0 <= i < |items| && test(items[i]) != Ok(false);
    var k := 0;
    while test(items[k]) == Ok(false)
      invariant 0 <= k <= i
      invariant forall j :: 0 <= j < k ==> test(items[j]) == Ok(false)
      decreases i - k
    {
      k := k + 1;
    }
    assert FirstDecidedFrom(items, test, 0, k);
    assert FirstDecided(items, test, k);
  }
}

=== FILE: selection.dfy ===
/** The format selection rules of `FunimationIE._real_extract`: which
    experiences are kept, how formats are ranked, and when the absence of
    formats is an error. */
module Selection {
  import opened Results
  import opened Text
  import opened Json
  import opened Search
  import opened Experiences
  import opened Seqs

  /** The user's choices: the `language` and `version` extractor arguments
      (as the host hands them over) and the `seperate-video-versions` compat
      option, which keeps only the experience named in the URL. */
  datatype Options = Options(languages: seq<string>, versions: seq<string>, onlyInitial: bool)

  /** A format as the downloads for one experience produce it. */
  datatype RawFormat = RawFormat(formatId: string, url: string)

  /** A format after `f.update(...)` has labelled it. */
  datatype Format = Format(
    formatId: string,
    url: string,
    language: Value,
    note: string,
    sourcePreference: int,
    languagePreference: int)

  /** `qualities(ids)(q)`: the position of `q` in `ids`, or -1 when absent. */
  function Quality(ids: seq<string>, q: string): (r: int)
    ensures -1 <= r < |ids|
    ensures r == -1 <==> q !in ids
    ensures r >= 0 ==> ids[r] == q && q !in ids[..r]
    decreases |ids|
  {
    if |ids| == 0 then -1
    else if ids[0] == q then 0
    else
      var r := Quality(ids[1..], q);
      if r == -1 then -1
      else
        assert ids[..r + 1] == [ids[0]] + ids[1..][..r];
        r + 1
  }

  /** The ranking a request list gives, with its default when empty. */
  function Ranking(requested: seq<string>, default: seq<string>, x: string): (r: int)
    requires |default| > 0
    ensures var ids := if |requested| == 0 then default else requested;
      && -1 <= r < |ids|
      && (r == -1 <==> x !in ids)
  {
    var ids := if |requested| == 0 then default else requested;
    var r := Quality(Reverse(ids), x);
    assert x in ids <==> x in Reverse(ids) by {
      if x in ids {
        var i :| 0 <= i < |ids| && ids[i] == x;
        assert Reverse(ids)[|ids| - 1 - i] == x;
      }
    }
    r
  }

  /** `language_preference(lang.lower())`: a language ranks -1 exactly when
      its lower-cased name was not requested, and with no request only the
      empty language ranks 0. */
  function LanguagePreference(opts: Options, lang: string): (r: int)
    ensures -1 <= r < (if |opts.languages| == 0 then 1 else |opts.languages|)
    ensures r == -1 <==> Lower(lang) !in (if |opts.languages| == 0 then [""] else opts.languages)
  {
    Ranking(opts.languages, [""], Lower(lang))
  }

  /** `source_preference(version.lower())`, with `['uncut', 'simulcast']` when
      no version was requested: -1 exactly for a version not among them. */
  function SourcePreference(opts: Options, version: string): (r: int)
    ensures -1 <= r < (if |opts.versions| == 0 then 2 else |opts.versions|)
    ensures r == -1 <==> Lower(version) !in (if |opts.versions| == 0 then ["uncut", "simulcast"] else opts.versions)
  {
    Ranking(opts.versions, ["uncut", "simulcast"], Lower(version))
  }

  /** The last position of `x` in `s`. */
  ghost predicate LastAt<T>(s: seq<T>, x: T, k: int) {
    0 <= k < |s| && s[k] == x && forall j :: k < j < |s| ==> s[j] != x
  }

  /** A requested value ranks by its last position in the request, counted
      from the end: the earlier it was asked for, the higher it ranks. */
  lemma RankOfRequested(req: seq<string>, x: string, k: int)
    requires LastAt(req, x, k)
    ensures Quality(Reverse(req), x) == |req| - 1 - k
  {
    var rev := Reverse(req);
    var r := Quality(rev, x);
    assert rev[|req| - 1 - k] == x;
  }

  /** Ranking by preference: among requested values, one whose last mention
      comes earlier ranks strictly higher, and every requested value
      outranks every value that was not requested. */
  lemma PreferenceOrder(req: seq<string>, x: string, y: string, i: int, j: int)
    requires LastAt(req, x, i) && LastAt(req, y, j) && i < j
    ensures Quality(Reverse(req), x) > Quality(Reverse(req), y) >= 0
    ensures forall z :: z !in req ==> Quality(Reverse(req), z) == -1
  {
    RankOfRequested(req, x, i);
    RankOfRequested(req, y, j);
    forall z | z !in req
      ensures Quality(Reverse(req), z) == -1
    {
      assert z !in Reverse(req);
    }
  }

  /** The source and language preferences rank by request: of two requested
      versions (or languages), the one whose last mention comes earlier ranks
      higher, in any spelling, and an unrequested one ranks -1. */
  lemma PreferencesFollowRequest(opts: Options, v1: string, v2: string, i: int, j: int)
    requires |opts.versions| > 0 && |opts.languages| > 0
    requires i < j
    ensures LastAt(opts.versions, Lower(v1), i) && LastAt(opts.versions, Lower(v2), j) ==>
      SourcePreference(opts, v1) > SourcePreference(opts, v2) >= 0
    ensures LastAt(opts.languages, Lower(v1), i) && LastAt(opts.languages, Lower(v2), j) ==>
      LanguagePreference(opts, v1) > LanguagePreference(opts, v2) >= 0
    ensures Lower(v1) !in opts.versions ==> SourcePreference(opts, v1) == -1
    ensures Lower(v1) !in opts.languages ==> LanguagePreference(opts, v1) == -1
  {
    if LastAt(opts.versions, Lower(v1), i) && LastAt(opts.versions, Lower(v2), j) {
      PreferenceOrder(opts.versions, Lower(v1), Lower(v2), i, j);
    }
    if LastAt(opts.languages, Lower(v1), i) && LastAt(opts.languages, Lower(v2), j) {
      PreferenceOrder(opts.languages, Lower(v1), Lower(v2), i, j);
    }
  }

  /** With no version requested, any spelling of `uncut` ranks 1, of
      `simulcast` 0, and everything else -1. */
  lemma DefaultSourcePreference(version: string)
    ensures Lower(version) == "uncut" ==> SourcePreference(Options([], [], false), version) == 1
    ensures Lower(version) == "simulcast" ==> SourcePreference(Options([], [], false), version) == 0
    ensures Lower(version) != "uncut" && Lower(version) != "simulcast" ==>
      SourcePreference(Options([], [], false), version) == -1
  {
    var rev := Reverse(["uncut", "simulcast"]);
    assert rev == ["simulcast", "uncut"];
  }

  /** The `continue` condition of the experience loop. */
  predicate Skipped(opts: Options, initialId: string, experienceId: string, lang: string, version: string)
    ensures !opts.onlyInitial && |opts.languages| == 0 && |opts.versions| == 0 ==>
      !Skipped(opts, initialId, experienceId, lang, version)
    ensures opts.onlyInitial && experienceId != initialId ==> Skipped(opts, initialId, experienceId, lang, version)
    ensures !Skipped(opts, initialId, experienceId, lang, version) && |opts.languages| > 0 ==> Lower(lang) in opts.languages
    ensures !Skipped(opts, initialId, experienceId, lang, version) && |opts.versions| > 0 ==> Lower(version) in opts.versions
    ensures (!opts.onlyInitial || experienceId == initialId)
         && (|opts.languages| == 0 || Lower(lang) in opts.languages)
         && (|opts.versions| == 0 || Lower(version) in opts.versions)
         ==> !Skipped(opts, initialId, experienceId, lang, version)
  {
    || (opts.onlyInitial && experienceId != initialId)
    || (|opts.languages| > 0 && Lower(lang) !in opts.languages)
    || (|opts.versions| > 0 && Lower(version) !in opts.versions)
  }

  /** The filters ignore letter case: a version is judged as the site spells
      it even though it arrives title-cased, and a language as it arrives in
      any case. */
  lemma FiltersIgnoreCase(opts: Options, initialId: string, experienceId: string, lang: string, version: string)
    ensures Skipped(opts, initialId, experienceId, lang, Title(version)) == Skipped(opts, initialId, experienceId, lang, version)
    ensures Skipped(opts, initialId, experienceId, Upper(lang), version) == Skipped(opts, initialId, experienceId, lang, version)
  {
    LowerOfTitle(version);
    LowerOfUpper(lang);
  }

  /** `str(fmt['experienceId'])` */
  function ExperienceId(x: Experience): (r: Result<string>)
    ensures r.Ok? <==> x.format.Obj? && Find(x.format.fields, "experienceId").Some?
    ensures r.Ok? ==> r.value == PyStr(Find(x.format.fields, "experienceId").value)
    ensures r.Ok? && Find(x.format.fields, "experienceId").value.Str? ==> r.value == Find(x.format.fields, "experienceId").value.s
    ensures r.Err? ==> r.error == (if x.format.Obj? then KeyError else TypeError)
  {
    var v :- Subscript(x.format, "experienceId");
    Ok(PyStr(v))
  }

  /** A downloaded format labelled with its experience's language and version. */
  function Label(raw: RawFormat, opts: Options, lang: string, version: string): (f: Format)
    ensures f.formatId == raw.formatId && f.url == raw.url
    ensures f.language == Str(lang) && f.note == version
    ensures f.sourcePreference == SourcePreference(opts, version)
    ensures f.languagePreference == LanguagePreference(opts, lang)
  {
    Format(raw.formatId, raw.url, Str(lang), version, SourcePreference(opts, version), LanguagePreference(opts, lang))
  }

  function LabelAll(raws: seq<RawFormat>, opts: Options, lang: string, version: string): (fs: seq<Format>)
    ensures |fs| == |raws|
    ensures forall i :: 0 <= i < |raws| ==> fs[i] == Label(raws[i], opts, lang, version)
  {
    seq(|raws|, i requires 0 <= i < |raws| => Label(raws[i], opts, lang, version))
  }

  /** `max(duration, fmt.get('duration', 0))` compares the duration with a
      number: a value that is not a number raises TypeError. */
  function Duration(x: Experience): (r: Result<int>)
    ensures r.Ok? <==> x.format.Obj? && Number(GetOr(x.format.fields, "duration", Int(0))).Some?
    ensures r.Err? ==> r.error == (if x.format.Obj? then TypeError else AttributeError)
    ensures x.format.Obj? && Find(x.format.fields, "duration").None? ==> r == Ok(0)
  {
    var d :- Get(x.format, "duration", Int(0));
    match Number(d)
    case Some(n) => Ok(n)
    case None => Err(TypeError)
  }

  /** Experience `x` is read without raising: its id can be read, and if it
      survives the filter, so can its duration. */
  ghost predicate Readable(x: Experience, opts: Options, initialId: string) {
    && ExperienceId(x).Ok?
    && (!Skipped(opts, initialId, ExperienceId(x).value, x.lang, x.version) ==> Duration(x).Ok?)
  }

  /** Experience `x` survives the filter and `f` is one of its labelled formats. */
  ghost predicate Contributes(x: Experience, f: Format, opts: Options, initialId: string, fetched: string -> seq<RawFormat>) {
    && ExperienceId(x).Ok?
    && !Skipped(opts, initialId, ExperienceId(x).value, x.lang, x.version)
    && exists raw :: raw in fetched(ExperienceId(x).value) && f == Label(raw, opts, x.lang, x.version)
  }

  /** The experience loop over already-yielded experiences: each one's id is
      read, skipped experiences contribute nothing, and every other one has
      its duration compared and contributes the formats `fetched` gives for
      its id, labelled. */
  function CollectFrom(xs: seq<Experience>, opts: Options, initialId: string, fetched: string -> seq<RawFormat>): (r: Result<seq<Format>>)
    ensures r.Ok? <==> forall k :: 0 <= k < |xs| ==> Readable(xs[k], opts, initialId)
    ensures r.Ok? ==> forall f :: f in r.value ==> exists x :: x in xs && Contributes(x, f, opts, initialId, fetched)
    ensures r.Ok? ==> forall x, raw ::
      (x in xs && !Skipped(opts, initialId, ExperienceId(x).value, x.lang, x.version) && raw in fetched(ExperienceId(x).value))
      ==> Label(raw, opts, x.lang, x.version) in r.value
    decreases |xs|
  {
    if |xs| == 0 then Ok([])
    else
      var x := xs[0];
      var id :- ExperienceId(x);
      var skip := Skipped(opts, initialId, id, x.lang, x.version);
      var _ :- if skip then Ok(0) else Duration(x);
      ReadableSplit(xs, opts, initialId);
      var rest :- CollectFrom(xs[1..], opts, initialId, fetched);
      assert forall y :: y in xs ==> y == x || y in xs[1..];
      if skip then Ok(rest)
      else
        var mine := LabelAll(fetched(id), opts, x.lang, x.version);
        LabelAllContributes(x, opts, initialId, fetched);
        Ok(mine + rest)
  }

  /** All experiences of a list pass their reads exactly when the first one and all the rest do. */
  lemma ReadableSplit(xs: seq<Experience>, opts: Options, initialId: string)
    requires |xs| > 0
    ensures (forall k :: 0 <= k < |xs| ==> Readable(xs[k], opts, initialId))
        <==> Readable(xs[0], opts, initialId)
             && forall k :: 0 <= k < |xs[1..]| ==> Readable(xs[1..][k], opts, initialId)
  {
    assert forall k :: 1 <= k < |xs| ==> xs[k] == xs[1..][k - 1];
  }

  /** The labelled formats of a kept experience are exactly its contributions. */
  lemma LabelAllContributes(x: Experience, opts: Options, initialId: string, fetched: string -> seq<RawFormat>)
    requires ExperienceId(x).Ok?
    requires !Skipped(opts, initialId, ExperienceId(x).value, x.lang, x.version)
    ensures var mine := LabelAll(fetched(ExperienceId(x).value), opts, x.lang, x.version);
      && (forall raw :: raw in fetched(ExperienceId(x).value) ==> Label(raw, opts, x.lang, x.version) in mine)
      && (forall f :: f in mine ==> Contributes(x, f, opts, initialId, fetched))
  {
    var id := ExperienceId(x).value;
    var mine := LabelAll(fetched(id), opts, x.lang, x.version);
    forall raw | raw in fetched(id)
      ensures Label(raw, opts, x.lang, x.version) in mine
    {
      var i :| 0 <= i < |fetched(id)| && fetched(id)[i] == raw;
      assert mine[i] == Label(raw, opts, x.lang, x.version);
    }
    forall f | f in mine
      ensures Contributes(x, f, opts, initialId, fetched)
    {
      var i :| 0 <= i < |mine| && mine[i] == f;
      assert fetched(id)[i] in fetched(id);
    }
  }

  /** Requesting a language and a version collects them: every format
      downloaded for an experience in a requested language and version (and,
      under `seperate-video-versions`, the URL's own experience) is collected. */
  lemma RequestedFormatsCollected(xs: seq<Experience>, opts: Options, initialId: string,
                                  fetched: string -> seq<RawFormat>, x: Experience, raw: RawFormat)
    requires CollectFrom(xs, opts, initialId, fetched).Ok?
    requires x in xs && ExperienceId(x).Ok? && raw in fetched(ExperienceId(x).value)
    requires !opts.onlyInitial || ExperienceId(x).value == initialId
    requires |opts.languages| == 0 || Lower(x.lang) in opts.languages
    requires |opts.versions| == 0 || Lower(x.version) in opts.versions
    ensures Label(raw, opts, x.lang, x.version) in CollectFrom(xs, opts, initialId, fetched).value
  {
    assert !Skipped(opts, initialId, ExperienceId(x).value, x.lang, x.version);
  }

  /** The whole experience loop, which also surfaces an exception the
      experience generator raises once its items are used up. */
  function CollectFormats(exps: Stream<Experience>, opts: Options, initialId: string, fetched: string -> seq<RawFormat>): (r: Result<seq<Format>>)
    ensures r.Ok? <==> exps.fault.None? && forall k :: 0 <= k < |exps.items| ==> Readable(exps.items[k], opts, initialId)
    ensures r.Ok? ==> forall f :: f in r.value ==> exists x :: x in exps.items && Contributes(x, f, opts, initialId, fetched)
    ensures r.Ok? ==> forall x, raw ::
      (x in exps.items && !Skipped(opts, initialId, ExperienceId(x).value, x.lang, x.version) && raw in fetched(ExperienceId(x).value))
      ==> Label(raw, opts, x.lang, x.version) in r.value
  {
    var fs :- CollectFrom(exps.items, opts, initialId, fetched);
    if exps.fault.Some? then Err(exps.fault.value) else Ok(fs)
  }

  /** The filters hold of every collected format: its language and version
      are among those requested, when any were requested. */
  lemma CollectedFormatsObeyFilters(exps: Stream<Experience>, opts: Options, initialId: string, fetched: string -> seq<RawFormat>)
    requires CollectFormats(exps, opts, initialId, fetched).Ok?
    ensures forall f :: f in CollectFormats(exps, opts, initialId, fetched).value ==>
      && f.language.Str?
      && (|opts.languages| > 0 ==> Lower(f.language.s) in opts.languages)
      && (|opts.versions| > 0 ==> Lower(f.note) in opts.versions)
  {
    var fs := CollectFormats(exps, opts, initialId, fetched).value;
    forall f | f in fs
      ensures f.language.Str?
      ensures |opts.languages| > 0 ==> Lower(f.language.s) in opts.languages
      ensures |opts.versions| > 0 ==> Lower(f.note) in opts.versions
    {
      var x :| x in exps.items && Contributes(x, f, opts, initialId, fetched);
      var raw :| raw in fetched(ExperienceId(x).value) && f == Label(raw, opts, x.lang, x.version);
    }
  }

  /** `if not formats and (requested_languages or requested_versions)` */
  function RequireFormats(formats: seq<Format>, opts: Options): (r: Result<seq<Format>>)
    ensures r.Err? <==> |formats| == 0 && (|opts.languages| > 0 || |opts.versions| > 0)
    ensures r.Err? ==> r.error == NoMatchingFormats
    ensures r.Ok? ==> r.value == formats
  {
    if |formats| == 0 && (|opts.languages| > 0 || |opts.versions| > 0) then Err(NoMatchingFormats) else Ok(formats)
  }

  /** The formats of one episode, with its experiences and the per-experience
      downloads as inputs: the collected formats, unless none were collected
      while a language or version was requested. */
  function EpisodeFormats(episode: Value, opts: Options, initialId: string, fetched: string -> seq<RawFormat>): (r: Result<seq<Format>>)
    ensures var c := CollectFormats(ExperienceStream(episode), opts, initialId, fetched);
      && (c.Err? ==> r == Err(c.error))
      && (c.Ok? ==> (r.Err? <==> |c.value| == 0 && (|opts.languages| > 0 || |opts.versions| > 0)))
      && (c.Ok? && r.Err? ==> r.error == NoMatchingFormats)
      && (r.Ok? ==> c.Ok? && r.value == c.value)
    ensures r.Ok? ==> Shaped(episode)
  {
    var fs :- CollectFormats(ExperienceStream(episode), opts, initialId, fetched);
    RequireFormats(fs, opts)
  }
}

=== FILE: seqs.dfy ===
/** Sequence helpers shared by the modules: distinctness, reversal, first
    positions, and Python's `orderedSet`. */
module Seqs {

  ghost predicate DupFree<T>(s: seq<T>) {
    forall i, j :: 0 <= i < j < |s| ==> s[i] != s[j]
  }

  /** `s[::-1]` */
  function Reverse<T>(s: seq<T>): (r: seq<T>)
    ensures |r| == |s|
    ensures forall i :: 0 <= i < |s| ==> r[i] == s[|s| - 1 - i]
  {
    seq(|s|, i requires 0 <= i < |s| => s[|s| - 1 - i])
  }

  /** The position of the first occurrence of `x` in `s`. */
  function FirstIndex<T(==)>(s: seq<T>, x: T): (k: nat)
    requires x in s
    ensures k < |s| && s[k] == x && x !in s[..k]
  {
    if s[0] == x then 0
    else
      var k := FirstIndex(s[1..], x) + 1;
      assert s[..k] == [s[0]] + s[1..][..k - 1];
      k
  }

  lemma FirstIndexInPrefix<T>(s: seq<T>, n: nat, x: T)
    requires n <= |s| && x in s[..n]
    ensures FirstIndex(s[..n], x) == FirstIndex(s, x)
  {
    var a, b := FirstIndex(s[..n], x), FirstIndex(s, x);
    assert s[..n][..a] == s[..a];
  }

  /** The result of `orderedSet` after one more element `x`: `x` is kept at
      the end when new and dropped when seen before. */
  function Step<T(==)>(r: seq<T>, x: T): seq<T> {
    if x in r then r else r + [x]
  }

  lemma StepMembers<T>(xs: seq<T>, prefix: seq<T>, x: T, r: seq<T>, nr: seq<T>)
    requires xs == prefix + [x] && (nr == r || nr == r + [x])
    requires forall i :: 0 <= i < |r| ==> r[i] in prefix
    ensures forall i :: 0 <= i < |nr| ==> nr[i] in xs
  {
    forall i | 0 <= i < |nr|
      ensures nr[i] in xs
    {
      if i < |r| {
        assert nr[i] == r[i];
        var k :| 0 <= k < |prefix| && prefix[k] == r[i];
        assert xs[k] == r[i];
      } else {
        assert nr[i] == xs[|prefix|];
      }
    }
  }

  lemma StepCovers<T>(xs: seq<T>, prefix: seq<T>, x: T, r: seq<T>, nr: seq<T>)
    requires xs == prefix + [x] && nr == Step(r, x)
    requires forall i :: 0 <= i < |prefix| ==> prefix[i] in r
    ensures forall i :: 0 <= i < |xs| ==> xs[i] in nr
  {
    forall i | 0 <= i < |xs|
      ensures xs[i] in nr
    {
      if i < |prefix| {
        assert prefix[i] == xs[i];
      }
    }
  }

  lemma StepKeepsOrder<T>(xs: seq<T>, prefix: seq<T>, x: T, r: seq<T>, nr: seq<T>)
    requires xs == prefix + [x] && nr == Step(r, x)
    requires forall i :: 0 <= i < |r| ==> r[i] in prefix
    requires forall i :: 0 <= i < |prefix| ==> prefix[i] in r
    requires forall i, j :: 0 <= i < j < |r| ==> FirstIndex(prefix, r[i]) < FirstIndex(prefix, r[j])
    ensures forall i :: 0 <= i < |nr| ==> nr[i] in xs
    ensures forall i, j :: 0 <= i < j < |nr| ==> FirstIndex(xs, nr[i]) < FirstIndex(xs, nr[j])
  {
    var n := |prefix|;
    assert prefix == xs[..n];
    StepMembers(xs, prefix, x, r, nr);
    forall i | 0 <= i < |r|
      ensures FirstIndex(prefix, r[i]) == FirstIndex(xs, r[i]) < n
    {
      FirstIndexInPrefix(xs, n, r[i]);
    }
    if x !in r {
      assert x !in xs[..n];
      assert FirstIndex(xs, x) == n;
    }
  }

  /** Strictly increasing first positions leave no room for a repeat. */
  lemma OrderedIsDupFree<T>(xs: seq<T>, r: seq<T>)
    requires forall i :: 0 <= i < |r| ==> r[i] in xs
    requires forall i, j :: 0 <= i < j < |r| ==> FirstIndex(xs, r[i]) < FirstIndex(xs, r[j])
    ensures DupFree(r)
  {
  }

  /** `orderedSet(xs)`: the first occurrence of each element, in order. */
  function OrderedSet<T(==)>(xs: seq<T>): (r: seq<T>)
    ensures forall i :: 0 <= i < |r| ==> r[i] in xs
    ensures forall i :: 0 <= i < |xs| ==> xs[i] in r
    ensures DupFree(r)
    ensures forall i, j :: 0 <= i < j < |r| ==> FirstIndex(xs, r[i]) < FirstIndex(xs, r[j])
    decreases |xs|
  {
    if |xs| == 0 then []
    else
      var n := |xs| - 1;
      var r := OrderedSet(xs[..n]);
      assert xs == xs[..n] + [xs[n]];
      StepCovers(xs, xs[..n], xs[n], r, Step(r, xs[n]));
      StepKeepsOrder(xs, xs[..n], xs[n], r, Step(r, xs[n]));
      OrderedIsDupFree(xs, Step(r, xs[n]));
      Step(r, xs[n])
  }
}

=== FILE: subtitles.dfy ===
/** Subtitle grouping, shared by `FunimationIE._get_subtitles` and
    `FunimationMetaIE._get_subtitles`: each track becomes a `{url, name}`
    entry filed under a key built from its language, version and type. */
module Subtitles {
  import opened Results
  import opened Text
  import opened Json
  import opened Search
  import opened Experiences
  import opened Lookup
  import opened Seqs

  /** One `{'url': ..., 'name': ...}` entry. */
  datatype Sub = Sub(url: Value, name: string)

  /** The `subtitles` dict: keys in insertion order, each with its entries. */
  type Table = seq<(string, seq<Sub>)>

  function Keys(t: Table): (ks: seq<string>)
    ensures |ks| == |t|
    ensures forall i :: 0 <= i < |t| ==> ks[i] == t[i].0
  {
    seq(|t|, i requires 0 <= i < |t| => t[i].0)
  }

  /** `subtitles.get(key, [])` */
  function Entries(t: Table, key: string): seq<Sub>
    decreases |t|
  {
    if |t| == 0 then [] else if t[0].0 == key then t[0].1 else Entries(t[1..], key)
  }

  /** A dict's keys are distinct, and no key holds the same entry twice. */
  ghost predicate WellFormed(t: Table) {
    DupFree(Keys(t)) && forall i :: 0 <= i < |t| ==> DupFree(t[i].1)
  }

  /** `t2` extends `t1` append-only: keys keep their order with new ones after,
      and each key's entries only gain entries at the end. */
  ghost predicate Grows(t1: Table, t2: Table) {
    Keys(t1) <= Keys(t2) && forall k :: Entries(t1, k) <= Entries(t2, k)
  }

  lemma GrowsTransitive(t1: Table, t2: Table, t3: Table)
    requires Grows(t1, t2) && Grows(t2, t3)
    ensures Grows(t1, t3)
  {
    forall k
      ensures Entries(t1, k) <= Entries(t3, k)
    {
      assert Entries(t1, k) <= Entries(t2, k) <= Entries(t3, k);
    }
  }
  /** Two loop steps that each grow a table, and keep it well formed, make
      one such step. */
  lemma GrowsStep(t1: Table, t2: Table, t3: Table)
    requires Grows(t1, t2) && (WellFormed(t1) ==> WellFormed(t2))
    requires Grows(t2, t3) && (WellFormed(t2) ==> WellFormed(t3))
    ensures Grows(t1, t3) && (WellFormed(t1) ==> WellFormed(t3))
  {
    GrowsTransitive(t1, t2, t3);
  }


  lemma EntriesOfMissingKey(t: Table, key: string)
    requires key !in Keys(t)
    ensures Entries(t, key) == []
    decreases |t|
  {
    if |t| > 0 {
      assert Keys(t[1..]) == Keys(t)[1..];
      EntriesOfMissingKey(t[1..], key);
    }
  }

  lemma EntriesCons(p: (string, seq<Sub>), rest: Table, k: string)
    ensures Entries([p] + rest, k) == if p.0 == k then p.1 else Entries(rest, k)
  {
    assert ([p] + rest)[1..] == rest;
  }

  lemma KeysCons(p: (string, seq<Sub>), rest: Table)
    ensures Keys([p] + rest) == [p.0] + Keys(rest)
  {
  }

  /** `subtitles.setdefault(key, []).append(s)` */
  function Append(t: Table, key: string, s: Sub): (r: Table)
    ensures Entries(r, key) == Entries(t, key) + [s]
    decreases |t|
  {
    if |t| == 0 then
      EntriesCons((key, [s]), [], key);
      [(key, [s])]
    else if t[0].0 == key then
      EntriesCons((key, t[0].1 + [s]), t[1..], key);
      EntriesCons(t[0], t[1..], key);
      [(key, t[0].1 + [s])] + t[1..]
    else
      var rest := Append(t[1..], key, s);
      EntriesCons(t[0], rest, key);
      EntriesCons(t[0], t[1..], key);
      [t[0]] + rest
  }

  /** Appending changes the entries of `key` only, by one entry at the end. */
  lemma {:induction false} AppendEntries(t: Table, key: string, s: Sub, k: string)
    ensures Entries(Append(t, key, s), k) == if k == key then Entries(t, key) + [s] else Entries(t, k)
    decreases |t|
  {
    if |t| == 0 {
      EntriesCons((key, [s]), [], k);
    } else if t[0].0 == key {
      EntriesCons((key, t[0].1 + [s]), t[1..], k);
      EntriesCons(t[0], t[1..], k);
      EntriesCons(t[0], t[1..], key);
    } else {
      AppendEntries(t[1..], key, s, k);
      EntriesCons(t[0], Append(t[1..], key, s), k);
      EntriesCons(t[0], t[1..], k);
      EntriesCons(t[0], t[1..], key);
    }
  }

  /** Appending adds `key` at the end of the keys if it is new. */
  lemma {:induction false} AppendKeys(t: Table, key: string, s: Sub)
    ensures Keys(Append(t, key, s)) == if key in Keys(t) then Keys(t) else Keys(t) + [key]
    decreases |t|
  {
    if |t| == 0 {
    } else if t[0].0 == key {
      KeysCons((key, t[0].1 + [s]), t[1..]);
      KeysCons(t[0], t[1..]);
    } else {
      AppendKeys(t[1..], key, s);
      AppendKeysStep(t, key, s);
    }
  }

  /** Past a first pair with another key, appending adds `key` to the keys
      exactly as it does to the rest of the table. */
  lemma AppendKeysStep(t: Table, key: string, s: Sub)
    requires |t| > 0 && t[0].0 != key
    requires Keys(Append(t[1..], key, s)) == if key in Keys(t[1..]) then Keys(t[1..]) else Keys(t[1..]) + [key]
    ensures Keys(Append(t, key, s)) == if key in Keys(t) then Keys(t) else Keys(t) + [key]
  {
    var rest := Keys(t[1..]);
    KeysCons(t[0], Append(t[1..], key, s));
    KeysCons(t[0], t[1..]);
    assert t == [t[0]] + t[1..];
    assert key in Keys(t) <==> key in rest;
    if key !in rest {
      assert [t[0].0] + (rest + [key]) == ([t[0].0] + rest) + [key];
    }
  }

  lemma AppendWellFormed(t: Table, key: string, s: Sub)
    requires s !in Entries(t, key)
    ensures WellFormed(t) ==> WellFormed(Append(t, key, s))
  {
    if WellFormed(t) {
      AppendKeepsWellFormed(t, key, s);
    }
  }

  lemma {:induction false} AppendKeepsWellFormed(t: Table, key: string, s: Sub)
    requires WellFormed(t)
    requires s !in Entries(t, key)
    ensures WellFormed(Append(t, key, s))
  {
    AppendKeysDupFree(t, key, s);
    AppendListsDupFree(t, key, s);
  }

  /** A new key goes last, so the keys stay distinct. */
  lemma AppendKeysDupFree(t: Table, key: string, s: Sub)
    requires DupFree(Keys(t))
    ensures DupFree(Keys(Append(t, key, s)))
  {
    AppendKeys(t, key, s);
  }

  /** Only `key`'s list changes, by an entry it did not hold. */
  lemma {:induction false} AppendListsDupFree(t: Table, key: string, s: Sub)
    requires forall i :: 0 <= i < |t| ==> DupFree(t[i].1)
    requires s !in Entries(t, key)
    ensures forall i :: 0 <= i < |Append(t, key, s)| ==> DupFree(Append(t, key, s)[i].1)
    decreases |t|
  {
    var r := Append(t, key, s);
    if |t| > 0 {
      if t[0].0 == key {
        assert forall i :: 0 < i < |r| ==> r[i] == t[i];
      } else {
        var rest := Append(t[1..], key, s);
        assert forall i :: 0 <= i < |t[1..]| ==> t[1..][i] == t[i + 1];
        AppendListsDupFree(t[1..], key, s);
        assert forall i :: 0 < i < |r| ==> r[i] == rest[i - 1];
      }
    }
  }

  /** `if s not in subtitles.get(key, []): subtitles.setdefault(key, []).append(s)` */
  function AddSub(t: Table, key: string, s: Sub): (r: Table)
    ensures Entries(r, key) == if s in Entries(t, key) then Entries(t, key) else Entries(t, key) + [s]
    ensures forall k :: k != key ==> Entries(r, k) == Entries(t, k)
    ensures s in Entries(r, key)
    ensures Grows(t, r)
    ensures WellFormed(t) ==> WellFormed(r)
  {
    if s in Entries(t, key) then t
    else
      AppendWellFormed(t, key, s);
      AppendKeys(t, key, s);
      forall k ensures Entries(Append(t, key, s), k) == if k == key then Entries(t, key) + [s] else Entries(t, k) {
        AppendEntries(t, key, s, k);
      }
      Append(t, key, s)
  }

  /** Filing a list of `(key, entry)` pairs one after another, each with
      `AddSub`: the reference every subtitle loop below is measured against. */
  function AddAll(t: Table, es: seq<(string, Sub)>): Table
    decreases |es|
  {
    if |es| == 0 then t else AddAll(AddSub(t, es[0].0, es[0].1), es[1..])
  }

  /** Filing only ever grows a table, and keeps it well formed. */
  lemma {:induction false} AddAllGrows(t: Table, es: seq<(string, Sub)>)
    ensures Grows(t, AddAll(t, es))
    ensures WellFormed(t) ==> WellFormed(AddAll(t, es))
    decreases |es|
  {
    if |es| > 0 {
      var t1 := AddSub(t, es[0].0, es[0].1);
      AddAllGrows(t1, es[1..]);
      GrowsTransitive(t, t1, AddAll(t1, es[1..]));
    }
  }

  /** Filing no entry or one entry. */
  lemma AddAllOne(t: Table, es: seq<(string, Sub)>)
    requires |es| <= 1
    ensures AddAll(t, es) == if |es| == 0 then t else AddSub(t, es[0].0, es[0].1)
  {
    if |es| == 1 {
      assert AddAll(AddSub(t, es[0].0, es[0].1), es[1..]) == AddSub(t, es[0].0, es[0].1);
    }
  }

  /** Filing two lists is filing the first, then the second. */
  lemma {:induction false} AddAllAppend(t: Table, a: seq<(string, Sub)>, b: seq<(string, Sub)>)
    ensures AddAll(t, a + b) == AddAll(AddAll(t, a), b)
    decreases |a|
  {
    if |a| == 0 {
      assert a + b == b;
    } else {
      assert (a + b)[1..] == a[1..] + b;
      AddAllAppend(AddSub(t, a[0].0, a[0].1), a[1..], b);
    }
  }

  /** `AddSub` adds nothing but its one entry, under its key. */
  lemma AddSubSound(t: Table, key: string, e: Sub, k: string, s: Sub)
    requires s in Entries(AddSub(t, key, e), k)
    ensures s in Entries(t, k) || (k == key && s == e)
  {
  }

  lemma InTail<T>(xs: seq<T>, x: T)
    requires |xs| > 0 && x in xs[1..]
    ensures x in xs
  {
    var i :| 0 <= i < |xs[1..]| && xs[1..][i] == x;
    assert xs[i + 1] == x;
  }

  /** Filing adds nothing but the listed entries, each under its own key. */
  lemma {:induction false} AddAllSound(t: Table, es: seq<(string, Sub)>, k: string, s: Sub)
    requires s in Entries(AddAll(t, es), k)
    ensures s in Entries(t, k) || (k, s) in es
    decreases |es|
  {
    if |es| > 0 {
      var t1 := AddSub(t, es[0].0, es[0].1);
      AddAllSound(t1, es[1..], k, s);
      if s in Entries(t1, k) {
        AddSubSound(t, es[0].0, es[0].1, k, s);
      } else {
        InTail(es, (k, s));
      }
    }
  }

  /** Every listed entry ends up filed under its key. */
  lemma {:induction false} AddAllFiles(t: Table, es: seq<(string, Sub)>, i: int)
    requires 0 <= i < |es|
    ensures es[i].1 in Entries(AddAll(t, es), es[i].0)
    decreases |es|
  {
    if i == 0 {
      AddAllFilesFirst(t, es);
    } else {
      var t1 := AddSub(t, es[0].0, es[0].1);
      assert AddAll(t, es) == AddAll(t1, es[1..]);
      AddAllFiles(t1, es[1..], i - 1);
      assert es[1..][i - 1] == es[i];
    }
  }

  /** The first listed entry is filed, and later filing keeps it. */
  lemma AddAllFilesFirst(t: Table, es: seq<(string, Sub)>)
    requires |es| > 0
    ensures es[0].1 in Entries(AddAll(t, es), es[0].0)
  {
    var t1 := AddSub(t, es[0].0, es[0].1);
    AddAllGrows(t1, es[1..]);
    GrowsKeepsEntry(t1, AddAll(t1, es[1..]), es[0].0, es[0].1);
  }

  /** `r` holds, besides what `t` held, only entries of `es`, each under its own key. */
  ghost predicate AddsOnly(t: Table, r: Table, es: seq<(string, Sub)>) {
    forall k, s :: s in Entries(r, k) ==> s in Entries(t, k) || (k, s) in es
  }

  lemma AddAllOnly(t: Table, es: seq<(string, Sub)>)
    ensures AddsOnly(t, AddAll(t, es), es)
  {
    forall k, s | s in Entries(AddAll(t, es), k)
      ensures s in Entries(t, k) || (k, s) in es
    {
      AddAllSound(t, es, k, s);
    }
  }

  /** After filing, a key holds exactly its old entries and the listed ones. */
  lemma AddAllExactly(t: Table, es: seq<(string, Sub)>)
    ensures forall k, s :: s in Entries(AddAll(t, es), k) <==> s in Entries(t, k) || (k, s) in es
  {
    AddAllOnly(t, es);
    forall k, s | s in Entries(t, k) || (k, s) in es
      ensures s in Entries(AddAll(t, es), k)
    {
      if s in Entries(t, k) {
        AddAllGrows(t, es);
        GrowsKeepsEntry(t, AddAll(t, es), k, s);
      } else {
        var i :| 0 <= i < |es| && es[i] == (k, s);
        AddAllFiles(t, es, i);
      }
    }
  }

  // ---------------------------------------------------------------------
  // FunimationIE: text tracks under an experience's sources

  /** `sub_type`: the upper-cased track type, or `None` for `FULL`. */
  function SubType(typ: string): (v: Value)
    ensures v == Null <==> Upper(typ) == "FULL"
    ensures v != Null ==> v == Str(Upper(typ))
  {
    var u := Upper(typ);
    if u == "FULL" then Null else Str(u)
  }

  /** The version part of a key: left out for `Simulcast`. */
  function KeyVersion(version: string): Value {
    if version != "Simulcast" then Str(version) else Null
  }

  /** `join_nonempty(language, version, sub_type, delim='_')`: the key starts
      with the language, and is empty when every part is. */
  function IeKey(language: Value, version: string, subType: Value): (r: string)
    ensures Truthy(language) ==> PyStr(language) <= r
    ensures !Truthy(language) && (version == "" || version == "Simulcast") && !Truthy(subType) ==> r == ""
  {
    NonEmptyPartsOfThree(language, KeyVersion(version), subType);
    JoinNonEmpty([language, KeyVersion(version), subType], '_')
  }

  /** `join_nonempty(version, label, sub_type, delim=' ')`: the name starts
      with the version. */
  function IeName(version: string, trackLabel: Value, subType: Value): (r: string)
    ensures version != "" ==> version <= r
  {
    NonEmptyPartsOfThree(Str(version), trackLabel, subType);
    JoinNonEmpty([Str(version), trackLabel, subType], ' ')
  }

  /** A subtitle name splits back at spaces into exactly its truthy parts, in
      the order version, label, type, when none contains a space. */
  lemma IeNameSplits(version: string, trackLabel: Value, subType: Value)
    requires ' ' !in version && ' ' !in PyStr(trackLabel) && ' ' !in PyStr(subType)
    requires |Part(Str(version)) + Part(trackLabel) + Part(subType)| > 0
    ensures Split(IeName(version, trackLabel, subType), ' ') == Part(Str(version)) + Part(trackLabel) + Part(subType)
  {
    JoinNonEmptySplits(Str(version), trackLabel, subType, ' ');
  }

  /** The parts of a key that survive: each present, non-empty part in the
      order language, version, type. */
  function KeptParts(language: Value, version: string, typ: string): seq<string> {
    (if Truthy(language) then [PyStr(language)] else [])
    + (if version != "" && version != "Simulcast" then [version] else [])
    + (if typ != "" && Upper(typ) != "FULL" then [Upper(typ)] else [])
  }

  /** A subtitle key splits back into exactly the parts that were kept, when
      no part contains `_`: the language (default `und` applies upstream),
      the version unless it is `Simulcast`, the upper-cased type unless it is
      `FULL`, with empty parts dropped. */
  lemma IeKeySplits(language: Value, version: string, typ: string)
    requires '_' !in PyStr(language) && '_' !in version && '_' !in typ
    requires |KeptParts(language, version, typ)| > 0
    ensures Split(IeKey(language, version, SubType(typ)), '_') == KeptParts(language, version, typ)
  {
    var vs := [language, KeyVersion(version), SubType(typ)];
    NonEmptyPartsOfThree(language, KeyVersion(version), SubType(typ));
    assert Part(SubType(typ)) == (if typ != "" && Upper(typ) != "FULL" then [Upper(typ)] else []);
    assert NonEmptyParts(vs) == KeptParts(language, version, typ);
    SplitJoin(NonEmptyParts(vs), '_');
  }

  /** The `Simulcast` version and the `FULL` type leave no trace in the key. */
  lemma SpecialPartsOmitted(language: Value, typ: string)
    ensures IeKey(language, "Simulcast", SubType(typ)) == IeKey(language, "", SubType(typ))
    ensures Upper(typ) == "FULL" ==> IeKey(language, "Simulcast", SubType(typ)) == JoinNonEmpty([language], '_')
  {
    NonEmptyPartsOfThree(language, KeyVersion("Simulcast"), SubType(typ));
    NonEmptyPartsOfThree(language, KeyVersion(""), SubType(typ));
  }

  /** The key and entry of a text track whose `type` is a string. */
  function TrackFiling(version: string, fields: seq<(string, Value)>): (string, Sub)
    requires GetOr(fields, "type", Null).Str?
  {
    var subType := SubType(GetOr(fields, "type", Null).s);
    (IeKey(GetOr(fields, "language", Str("und")), version, subType),
     Sub(GetOr(fields, "src", Null), IeName(version, GetOr(fields, "label", Null), subType)))
  }

  /** What a text track files: its entry when it has a `src` and is handled
      without raising, nothing otherwise. */
  function TrackEntry(version: string, track: Value): seq<(string, Sub)> {
    if track.Obj? && Truthy(GetOr(track.fields, "src", Null)) && GetOr(track.fields, "type", Null).Str? then
      [TrackFiling(version, track.fields)]
    else []
  }

  function TracksEntries(version: string, tracks: seq<Value>): seq<(string, Sub)>
    decreases |tracks|
  {
    if |tracks| == 0 then [] else TrackEntry(version, tracks[0]) + TracksEntries(version, tracks[1..])
  }

  /** What one text track leaves in `t`: nothing to check when its `src` is
      empty, otherwise its entry under its key. */
  ghost predicate TextTrackFiled(t: Table, version: string, track: Value) {
    track.Obj? &&
    (Truthy(GetOr(track.fields, "src", Null)) ==>
      GetOr(track.fields, "type", Null).Str? &&
      var subType := SubType(GetOr(track.fields, "type", Null).s);
      Sub(GetOr(track.fields, "src", Null), IeName(version, GetOr(track.fields, "label", Null), subType))
        in Entries(t, IeKey(GetOr(track.fields, "language", Str("und")), version, subType)))
  }

  lemma GrowsKeepsEntry(t1: Table, t2: Table, k: string, s: Sub)
    requires Grows(t1, t2) && s in Entries(t1, k)
    ensures s in Entries(t2, k)
  {
    assert Entries(t1, k) <= Entries(t2, k);
  }

  lemma GrowsKeepsTextTrack(t1: Table, t2: Table, version: string, track: Value)
    requires Grows(t1, t2) && TextTrackFiled(t1, version, track)
    ensures TextTrackFiled(t2, version, track)
  {
    if Truthy(GetOr(track.fields, "src", Null)) {
      var subType := SubType(GetOr(track.fields, "type", Null).s);
      GrowsKeepsEntry(t1, t2, IeKey(GetOr(track.fields, "language", Str("und")), version, subType),
        Sub(GetOr(track.fields, "src", Null), IeName(version, GetOr(track.fields, "label", Null), subType)));
    }
  }

  /** One text track: ignored when `src` is empty or missing; otherwise its
      `{url, name}` is added under its key unless already there. */
  function AddTextTrack(t: Table, version: string, track: Value): (r: Result<Table>)
    ensures r.Err? <==>
      (!track.Obj? || (Truthy(GetOr(track.fields, "src", Null)) && !GetOr(track.fields, "type", Null).Str?))
    ensures r.Ok? && !Truthy(GetOr(track.fields, "src", Null)) ==> r.value == t
    ensures r.Ok? && Truthy(GetOr(track.fields, "src", Null)) ==>
      var subType := SubType(GetOr(track.fields, "type", Null).s);
      Sub(GetOr(track.fields, "src", Null), IeName(version, GetOr(track.fields, "label", Null), subType))
        in Entries(r.value, IeKey(GetOr(track.fields, "language", Str("und")), version, subType))
    ensures r.Ok? ==> Grows(t, r.value) && (WellFormed(t) ==> WellFormed(r.value))
    ensures r.Ok? ==> TextTrackFiled(r.value, version, track)
    ensures r.Ok? ==> forall k :: (Entries(r.value, k) == Entries(t, k) ||
      (|TrackEntry(version, track)| == 1 && k == TrackEntry(version, track)[0].0 &&
       Entries(r.value, k) == Entries(t, k) + [TrackEntry(version, track)[0].1]))
    ensures r.Err? ==> r.error == AttributeError
  {
    match track
    case Obj(fields) =>
      if !Truthy(GetOr(fields, "src", Null)) then Ok(t)
      else if !GetOr(fields, "type", Null).Str? then Err(AttributeError)
      else
        var e := TrackFiling(version, fields);
        Ok(AddSub(t, e.0, e.1))
    case _ => Err(AttributeError)
  }

  /** A text track the loop handles without raising: a dict, and one whose
      `type` is a string when it has a `src`. */
  ghost predicate TrackOk(track: Value) {
    track.Obj? && (Truthy(GetOr(track.fields, "src", Null)) ==> GetOr(track.fields, "type", Null).Str?)
  }

  /** All tracks of a list can be read exactly when the first one and all the rest can. */
  lemma TracksOkSplit(tracks: seq<Value>)
    requires |tracks| > 0
    ensures (forall i :: 0 <= i < |tracks| ==> TrackOk(tracks[i]))
        <==> TrackOk(tracks[0]) && forall i :: 0 <= i < |tracks[1..]| ==> TrackOk(tracks[1..][i])
  {
    assert forall i :: 1 <= i < |tracks| ==> tracks[i] == tracks[1..][i - 1];
  }

  /** A table files all tracks of a list exactly when it files the first one and all the rest. */
  lemma TracksFiledSplit(t: Table, version: string, tracks: seq<Value>)
    requires |tracks| > 0
    ensures (forall i :: 0 <= i < |tracks| ==> TextTrackFiled(t, version, tracks[i]))
        <==> TextTrackFiled(t, version, tracks[0])
             && forall i :: 0 <= i < |tracks[1..]| ==> TextTrackFiled(t, version, tracks[1..][i])
  {
    assert forall i :: 1 <= i < |tracks| ==> tracks[i] == tracks[1..][i - 1];
  }

  /** `for text_track in source.get('textTracks')` */
  function AddTextTracks(t: Table, version: string, tracks: seq<Value>): (r: Result<Table>)
    ensures r.Ok? <==> forall i :: 0 <= i < |tracks| ==> TrackOk(tracks[i])
    ensures r.Ok? ==> Grows(t, r.value) && (WellFormed(t) ==> WellFormed(r.value))
    ensures r.Ok? ==> forall i :: 0 <= i < |tracks| ==> TextTrackFiled(r.value, version, tracks[i])
    decreases |tracks|
  {
    if |tracks| == 0 then Ok(t)
    else
      TracksOkSplit(tracks);
      var t1 :- AddTextTrack(t, version, tracks[0]);
      var t2 :- AddTextTracks(t1, version, tracks[1..]);
      GrowsStep(t, t1, t2);
      GrowsKeepsTextTrack(t1, t2, version, tracks[0]);
      TracksFiledSplit(t2, version, tracks);
      Ok(t2)
  }

  /** The text track loop files exactly its tracks' entries, one by one. */
  lemma {:induction false} AddTextTracksIsFiling(t: Table, version: string, tracks: seq<Value>)
    requires AddTextTracks(t, version, tracks).Ok?
    ensures AddTextTracks(t, version, tracks).value == AddAll(t, TracksEntries(version, tracks))
    decreases |tracks|
  {
    if |tracks| > 0 {
      var t1 := AddTextTrack(t, version, tracks[0]).value;
      AddAllOne(t, TrackEntry(version, tracks[0]));
      AddTextTracksIsFiling(t1, version, tracks[1..]);
      AddAllAppend(t, TrackEntry(version, tracks[0]), TracksEntries(version, tracks[1..]));
    }
  }

  /** The items of `v.get(key)` iterated: `.get` needs a dict and the value
      under the key, `None` when it is missing, must be iterable. */
  function ListUnder(v: Value, key: string): (r: Result<seq<Value>>)
    ensures r.Err? ==> r.error == (if v.Obj? then TypeError else AttributeError)
    ensures r.Ok? <==> v.Obj? && Iterate(GetOr(v.fields, key, Null)).Ok?
    ensures r.Ok? ==> r == Iterate(GetOr(v.fields, key, Null))
  {
    var x :- Get(v, key, Null);
    Iterate(x)
  }

  /** A source the loop handles without raising: its text tracks can be
      iterated and each of them is handled. */
  ghost predicate SourceOk(source: Value) {
    ListUnder(source, "textTracks").Ok? &&
    var tracks := ListUnder(source, "textTracks").value;
    forall i :: 0 <= i < |tracks| ==> TrackOk(tracks[i])
  }

  /** Every text track of a source is filed in `t`. */
  ghost predicate SourceFiled(t: Table, version: string, source: Value) {
    ListUnder(source, "textTracks").Ok? &&
    var tracks := ListUnder(source, "textTracks").value;
    forall i :: 0 <= i < |tracks| ==> TextTrackFiled(t, version, tracks[i])
  }

  lemma GrowsKeepsSource(t1: Table, t2: Table, version: string, source: Value)
    requires Grows(t1, t2) && SourceFiled(t1, version, source)
    ensures SourceFiled(t2, version, source)
  {
    var tracks := ListUnder(source, "textTracks").value;
    forall i | 0 <= i < |tracks|
      ensures TextTrackFiled(t2, version, tracks[i])
    {
      GrowsKeepsTextTrack(t1, t2, version, tracks[i]);
    }
  }

  /** What a source files: the entries of its text tracks. */
  function SourceEntries(version: string, source: Value): seq<(string, Sub)> {
    match ListUnder(source, "textTracks")
    case Ok(tracks) => TracksEntries(version, tracks)
    case Err(_) => []
  }

  function SourcesEntries(version: string, sources: seq<Value>): seq<(string, Sub)>
    decreases |sources|
  {
    if |sources| == 0 then [] else SourceEntries(version, sources[0]) + SourcesEntries(version, sources[1..])
  }

  /** The body of the source loop for one source: its text tracks. */
  function AddSource(t: Table, version: string, source: Value): (r: Result<Table>)
    ensures r.Ok? <==> SourceOk(source)
    ensures r.Ok? ==> Grows(t, r.value) && (WellFormed(t) ==> WellFormed(r.value))
    ensures r.Ok? ==> SourceFiled(r.value, version, source)
    ensures r.Ok? ==> r.value == AddAll(t, SourceEntries(version, source))
  {
    var items :- ListUnder(source, "textTracks");
    var r := AddTextTracks(t, version, items);
    if r.Ok? then AddTextTracksIsFiling(t, version, items); r else r
  }

  /** All sources of a list can be read exactly when the first one and all the rest can. */
  lemma SourcesOkSplit(sources: seq<Value>)
    requires |sources| > 0
    ensures (forall i :: 0 <= i < |sources| ==> SourceOk(sources[i]))
        <==> SourceOk(sources[0]) && forall i :: 0 <= i < |sources[1..]| ==> SourceOk(sources[1..][i])
  {
    assert forall i :: 1 <= i < |sources| ==> sources[i] == sources[1..][i - 1];
  }

  /** A table files all sources of a list exactly when it files the first one and all the rest. */
  lemma SourcesFiledSplit(t: Table, version: string, sources: seq<Value>)
    requires |sources| > 0
    ensures (forall i :: 0 <= i < |sources| ==> SourceFiled(t, version, sources[i]))
        <==> SourceFiled(t, version, sources[0])
             && forall i :: 0 <= i < |sources[1..]| ==> SourceFiled(t, version, sources[1..][i])
  {
    assert forall i :: 1 <= i < |sources| ==> sources[i] == sources[1..][i - 1];
  }

  /** `for source in f.get('sources')`, then its text tracks. */
  function AddSources(t: Table, version: string, sources: seq<Value>): (r: Result<Table>)
    ensures r.Ok? <==> forall i :: 0 <= i < |sources| ==> SourceOk(sources[i])
    ensures r.Ok? ==> Grows(t, r.value) && (WellFormed(t) ==> WellFormed(r.value))
    ensures r.Ok? ==> forall i :: 0 <= i < |sources| ==> SourceFiled(r.value, version, sources[i])
    decreases |sources|
  {
    if |sources| == 0 then Ok(t)
    else
      SourcesOkSplit(sources);
      var t1 :- AddSource(t, version, sources[0]);
      var t2 :- AddSources(t1, version, sources[1..]);
      GrowsStep(t, t1, t2);
      GrowsKeepsSource(t1, t2, version, sources[0]);
      SourcesFiledSplit(t2, version, sources);
      Ok(t2)
  }

  /** The source loop files exactly its sources' entries, one by one. */
  lemma {:induction false} AddSourcesIsFiling(t: Table, version: string, sources: seq<Value>)
    requires AddSources(t, version, sources).Ok?
    ensures AddSources(t, version, sources).value == AddAll(t, SourcesEntries(version, sources))
    decreases |sources|
  {
    if |sources| > 0 {
      var t1 := AddSource(t, version, sources[0]).value;
      AddSourcesIsFiling(t1, version, sources[1..]);
      AddAllAppend(t, SourceEntries(version, sources[0]), SourcesEntries(version, sources[1..]));
    }
  }

  /** An experience the loop handles without raising: its format's sources
      can be iterated and each of them is handled. */
  ghost predicate ExperienceOk(x: Experience) {
    ListUnder(x.format, "sources").Ok? &&
    var sources := ListUnder(x.format, "sources").value;
    forall j :: 0 <= j < |sources| ==> SourceOk(sources[j])
  }

  /** Every text track under every source of an experience is filed in `t`. */
  ghost predicate ExperienceFiled(t: Table, x: Experience) {
    ListUnder(x.format, "sources").Ok? &&
    var sources := ListUnder(x.format, "sources").value;
    forall j :: 0 <= j < |sources| ==> SourceFiled(t, x.version, sources[j])
  }

  lemma GrowsKeepsExperience(t1: Table, t2: Table, x: Experience)
    requires Grows(t1, t2) && ExperienceFiled(t1, x)
    ensures ExperienceFiled(t2, x)
  {
    var sources := ListUnder(x.format, "sources").value;
    forall j | 0 <= j < |sources|
      ensures SourceFiled(t2, x.version, sources[j])
    {
      GrowsKeepsSource(t1, t2, x.version, sources[j]);
    }
  }

  /** What an experience files: the entries of its sources' text tracks. */
  function ExperienceEntries(x: Experience): seq<(string, Sub)> {
    match ListUnder(x.format, "sources")
    case Ok(sources) => SourcesEntries(x.version, sources)
    case Err(_) => []
  }

  function ExperiencesEntries(xs: seq<Experience>): seq<(string, Sub)>
    decreases |xs|
  {
    if |xs| == 0 then [] else ExperienceEntries(xs[0]) + ExperiencesEntries(xs[1..])
  }

  /** The body of the experience loop for one yielded experience. */
  function AddExperience(t: Table, x: Experience): (r: Result<Table>)
    ensures r.Ok? <==> ExperienceOk(x)
    ensures r.Ok? ==> Grows(t, r.value) && (WellFormed(t) ==> WellFormed(r.value))
    ensures r.Ok? ==> ExperienceFiled(r.value, x)
    ensures r.Ok? ==> r.value == AddAll(t, ExperienceEntries(x))
  {
    var items :- ListUnder(x.format, "sources");
    var r := AddSources(t, x.version, items);
    if r.Ok? then AddSourcesIsFiling(t, x.version, items); r else r
  }

  /** All experiences of a list can be read exactly when the first one and all the rest can. */
  lemma ExperiencesOkSplit(xs: seq<Experience>)
    requires |xs| > 0
    ensures (forall k :: 0 <= k < |xs| ==> ExperienceOk(xs[k]))
        <==> ExperienceOk(xs[0]) && forall k :: 0 <= k < |xs[1..]| ==> ExperienceOk(xs[1..][k])
  {
    assert forall k :: 1 <= k < |xs| ==> xs[k] == xs[1..][k - 1];
  }

  /** A table files all experiences of a list exactly when it files the first one and all the rest. */
  lemma ExperiencesFiledSplit(t: Table, xs: seq<Experience>)
    requires |xs| > 0
    ensures (forall k :: 0 <= k < |xs| ==> ExperienceFiled(t, xs[k]))
        <==> ExperienceFiled(t, xs[0]) && forall k :: 0 <= k < |xs[1..]| ==> ExperienceFiled(t, xs[1..][k])
  {
    assert forall k :: 1 <= k < |xs| ==> xs[k] == xs[1..][k - 1];
  }

  /** `for _, version, f in self._get_experiences(episode)` over the yielded experiences. */
  function AddExperiences(t: Table, xs: seq<Experience>): (r: Result<Table>)
    ensures r.Ok? <==> forall k :: 0 <= k < |xs| ==> ExperienceOk(xs[k])
    ensures r.Ok? ==> Grows(t, r.value) && (WellFormed(t) ==> WellFormed(r.value))
    ensures r.Ok? ==> forall k :: 0 <= k < |xs| ==> ExperienceFiled(r.value, xs[k])
    decreases |xs|
  {
    if |xs| == 0 then Ok(t)
    else
      ExperiencesOkSplit(xs);
      var t1 :- AddExperience(t, xs[0]);
      var t2 :- AddExperiences(t1, xs[1..]);
      GrowsStep(t, t1, t2);
      GrowsKeepsExperience(t1, t2, xs[0]);
      ExperiencesFiledSplit(t2, xs);
      Ok(t2)
  }

  /** The experience loop files exactly its experiences' entries, one by one. */
  lemma {:induction false} AddExperiencesIsFiling(t: Table, xs: seq<Experience>)
    requires AddExperiences(t, xs).Ok?
    ensures AddExperiences(t, xs).value == AddAll(t, ExperiencesEntries(xs))
    decreases |xs|
  {
    if |xs| > 0 {
      var t1 := AddExperience(t, xs[0]).value;
      AddExperiencesIsFiling(t1, xs[1..]);
      AddAllAppend(t, ExperienceEntries(xs[0]), ExperiencesEntries(xs[1..]));
    }
  }

  /** The subtitle loop over all of an episode's experiences: it raises
      exactly when the experience generator or one of the loops over what it
      yields raises, and otherwise files every text track with a `src`. */
  function EpisodeSubtitles(t: Table, episode: Value): (r: Result<Table>)
    ensures r.Ok? <==>
      && Shaped(episode)
      && forall k :: 0 <= k < |ExperienceStream(episode).items| ==> ExperienceOk(ExperienceStream(episode).items[k])
    ensures r.Ok? ==> Grows(t, r.value) && (WellFormed(t) ==> WellFormed(r.value))
    ensures r.Ok? ==>
      forall k :: 0 <= k < |ExperienceStream(episode).items| ==> ExperienceFiled(r.value, ExperienceStream(episode).items[k])
    ensures r.Ok? ==> r.value == AddAll(t, ExperiencesEntries(ExperienceStream(episode).items))
    ensures r.Ok? ==> AddsOnly(t, r.value, ExperiencesEntries(ExperienceStream(episode).items))
    ensures episode == Obj([]) ==> r == Ok(t)
  {
    var s := ExperienceStream(episode);
    var t1 :- AddExperiences(t, s.items);
    AddExperiencesIsFiling(t, s.items);
    AddAllOnly(t, ExperiencesEntries(s.items));
    if s.fault.Some? then Err(s.fault.value) else Ok(t1)
  }

  /** The `episode` argument: the episode itself, or its id together with the
      show data parsed from that experience's player page. */
  datatype EpisodeArg = Given(episode: Value) | ById(episodeId: string, page: Value)

  /** `FunimationIE._get_subtitles`.  An episode id is first resolved by the
      non-fatal lookup, with `{}` in place of `[]` for a falsy page; an
      episode that cannot be found adds nothing. */
  function FunimationSubtitles(t: Table, arg: EpisodeArg): (r: Result<Table>)
    ensures r.Ok? ==> Grows(t, r.value) && (WellFormed(t) ==> WellFormed(r.value))
    ensures arg.Given? ==> r == EpisodeSubtitles(t, arg.episode)
    ensures arg.ById? ==>
      var m := GetEpisode(arg.page, ByEpisode(arg.episodeId), false);
      && (m.Err? ==> r == Err(m.error))
      && (m == Ok(Missing) ==> r == Ok(t))
      && (m.Ok? && m.value.Found? ==> r == EpisodeSubtitles(t, m.value.episode))
  {
    match arg
    case Given(episode) => EpisodeSubtitles(t, episode)
    case ById(id, page) =>
      var m :- GetEpisode(page, ByEpisode(id), false);
      EpisodeSubtitles(t, if m.Found? then m.episode else Obj([]))
  }

  /** On a player page whose show data is `{}`, the subtitles step adds
      nothing, where the lookup as written would raise instead. */
  lemma EmptyPageSubtitles(t: Table, id: string)
    ensures FunimationSubtitles(t, ById(id, Obj([]))) == Ok(t)
    ensures GetEpisodeAsWritten(Obj([]), ByEpisode(id), false) == Err(AttributeError)
  {
    EmptyShowDiscrepancy(ByEpisode(id));
  }

  // ---------------------------------------------------------------------
  // FunimationMetaIE: subtitle tracks of one playback

  /** The key of a playback subtitle: language code (default `und`), the
      version unless it equals `Simulcast`, and the content type as given. */
  function MetaKey(code: Value, version: Value, contentType: Value): (r: string)
    ensures Truthy(code) ==> PyStr(code) <= r
    ensures PyEq(version, Str("Simulcast")) ==> r == JoinNonEmpty([code, contentType], '_')
  {
    var v := if PyEq(version, Str("Simulcast")) then Null else version;
    NonEmptyPartsOfThree(code, v, contentType);
    assert NonEmptyParts([code, contentType]) == Part(code) + Part(contentType) by {
      assert [code, contentType][1..] == [contentType];
      assert [contentType][1..] == [];
    }
    JoinNonEmpty([code, v, contentType], '_')
  }

  /** `join_nonempty(version, languageCode, contentType)`, with the default
      `-`: the name starts with the version. */
  function MetaName(version: Value, code: Value, contentType: Value): (r: string)
    ensures Truthy(version) ==> PyStr(version) <= r
  {
    NonEmptyPartsOfThree(version, code, contentType);
    JoinNonEmpty([version, code, contentType], '-')
  }

  /** The key and entry of a playback subtitle track. */
  function MetaFiling(version: Value, fields: seq<(string, Value)>): (string, Sub) {
    (MetaKey(GetOr(fields, "languageCode", Str("und")), version, GetOr(fields, "contentType", Null)),
     Sub(GetOr(fields, "filePath", Null), MetaName(version, GetOr(fields, "languageCode", Null), GetOr(fields, "contentType", Null))))
  }

  /** What a playback subtitle track files: its entry, when it is a dict. */
  function MetaTrackEntry(version: Value, track: Value): seq<(string, Sub)> {
    if track.Obj? then [MetaFiling(version, track.fields)] else []
  }

  function MetaTracksEntries(version: Value, tracks: seq<Value>): seq<(string, Sub)>
    decreases |tracks|
  {
    if |tracks| == 0 then [] else MetaTrackEntry(version, tracks[0]) + MetaTracksEntries(version, tracks[1..])
  }

  /** The parts a playback key keeps: each truthy part in the order code,
      version, content type, the version dropped when it equals `Simulcast`. */
  function MetaKeptParts(code: Value, version: Value, contentType: Value): seq<string> {
    Part(code) + (if PyEq(version, Str("Simulcast")) then [] else Part(version)) + Part(contentType)
  }

  /** A playback key splits back at `_` into exactly the parts kept, when no
      part contains `_`. */
  lemma MetaKeySplits(code: Value, version: Value, contentType: Value)
    requires '_' !in PyStr(code) && '_' !in PyStr(version) && '_' !in PyStr(contentType)
    requires |MetaKeptParts(code, version, contentType)| > 0
    ensures Split(MetaKey(code, version, contentType), '_') == MetaKeptParts(code, version, contentType)
  {
    var v := if PyEq(version, Str("Simulcast")) then Null else version;
    assert Part(v) == (if PyEq(version, Str("Simulcast")) then [] else Part(version));
    JoinNonEmptySplits(code, v, contentType, '_');
  }

  /** A playback name splits back at `-` into exactly its truthy parts, in
      the order version, language code, content type, when none contains `-`. */
  lemma MetaNameSplits(version: Value, code: Value, contentType: Value)
    requires '-' !in PyStr(version) && '-' !in PyStr(code) && '-' !in PyStr(contentType)
    requires |Part(version) + Part(code) + Part(contentType)| > 0
    ensures Split(MetaName(version, code, contentType), '-') == Part(version) + Part(code) + Part(contentType)
  {
    JoinNonEmptySplits(version, code, contentType, '-');
  }

  /** A playback subtitle track's entry is in `t` under its key. */
  ghost predicate MetaTrackFiled(t: Table, version: Value, track: Value) {
    track.Obj? &&
    Sub(GetOr(track.fields, "filePath", Null),
        MetaName(version, GetOr(track.fields, "languageCode", Null), GetOr(track.fields, "contentType", Null)))
      in Entries(t, MetaKey(GetOr(track.fields, "languageCode", Str("und")), version, GetOr(track.fields, "contentType", Null)))
  }

  lemma GrowsKeepsMetaTrack(t1: Table, t2: Table, version: Value, track: Value)
    requires Grows(t1, t2) && MetaTrackFiled(t1, version, track)
    ensures MetaTrackFiled(t2, version, track)
  {
    var f := track.fields;
    GrowsKeepsEntry(t1, t2, MetaKey(GetOr(f, "languageCode", Str("und")), version, GetOr(f, "contentType", Null)),
      Sub(GetOr(f, "filePath", Null), MetaName(version, GetOr(f, "languageCode", Null), GetOr(f, "contentType", Null))));
  }

  /** One playback subtitle track, always added unless an equal entry is there. */
  function AddMetaTrack(t: Table, version: Value, track: Value): (r: Result<Table>)
    ensures r.Err? <==> !track.Obj?
    ensures r.Ok? ==> MetaTrackFiled(r.value, version, track)
    ensures r.Ok? ==> Grows(t, r.value) && (WellFormed(t) ==> WellFormed(r.value))
    ensures r.Err? ==> r.error == AttributeError
  {
    var _ :- Get(track, "filePath", Null);
    var e := MetaFiling(version, track.fields);
    Ok(AddSub(t, e.0, e.1))
  }

  /** One playback track changes one key only, its own, and that by at most
      its one entry at the end. */
  lemma AddMetaTrackTouchesOneKey(t: Table, version: Value, track: Value, k: string)
    requires AddMetaTrack(t, version, track).Ok?
    ensures track.Obj?
    ensures var r := AddMetaTrack(t, version, track).value;
      || Entries(r, k) == Entries(t, k)
      || (k == MetaFiling(version, track.fields).0 &&
          Entries(r, k) == Entries(t, k) + [MetaFiling(version, track.fields).1])
  {
  }

  /** All values of a list are dicts exactly when the first one and all the rest are. */
  lemma DictsSplit(vs: seq<Value>)
    requires |vs| > 0
    ensures (forall i :: 0 <= i < |vs| ==> vs[i].Obj?)
        <==> vs[0].Obj? && forall i :: 0 <= i < |vs[1..]| ==> vs[1..][i].Obj?
  {
    assert forall i :: 1 <= i < |vs| ==> vs[i] == vs[1..][i - 1];
  }

  function AddMetaTracks(t: Table, version: Value, tracks: seq<Value>): (r: Result<Table>)
    ensures r.Ok? <==> forall i :: 0 <= i < |tracks| ==> tracks[i].Obj?
    ensures r.Ok? ==> Grows(t, r.value) && (WellFormed(t) ==> WellFormed(r.value))
    ensures r.Err? ==> r.error == AttributeError
    decreases |tracks|
  {
    if |tracks| == 0 then Ok(t)
    else
      DictsSplit(tracks);
      var t1 :- AddMetaTrack(t, version, tracks[0]);
      var t2 :- AddMetaTracks(t1, version, tracks[1..]);
      GrowsStep(t, t1, t2);
      Ok(t2)
  }

  /** The playback track loop files exactly its tracks' entries, one by one. */
  lemma {:induction false} AddMetaTracksIsFiling(t: Table, version: Value, tracks: seq<Value>)
    requires AddMetaTracks(t, version, tracks).Ok?
    ensures AddMetaTracks(t, version, tracks).value == AddAll(t, MetaTracksEntries(version, tracks))
    decreases |tracks|
  {
    if |tracks| > 0 {
      var t1 := AddMetaTrack(t, version, tracks[0]).value;
      AddAllOne(t, MetaTrackEntry(version, tracks[0]));
      AddMetaTracksIsFiling(t1, version, tracks[1..]);
      AddAllAppend(t, MetaTrackEntry(version, tracks[0]), MetaTracksEntries(version, tracks[1..]));
    }
  }

  /** After the loop every playback track is filed. */
  lemma {:induction false} AddMetaTracksFiles(t: Table, version: Value, tracks: seq<Value>)
    requires AddMetaTracks(t, version, tracks).Ok?
    ensures forall i :: 0 <= i < |tracks| ==> MetaTrackFiled(AddMetaTracks(t, version, tracks).value, version, tracks[i])
    decreases |tracks|
  {
    if |tracks| > 0 {
      var t1 := AddMetaTrack(t, version, tracks[0]).value;
      var t2 := AddMetaTracks(t1, version, tracks[1..]).value;
      assert AddMetaTracks(t, version, tracks).value == t2;
      AddMetaTracksFiles(t1, version, tracks[1..]);
      forall i | 0 <= i < |tracks|
        ensures MetaTrackFiled(t2, version, tracks[i])
      {
        if i == 0 {
          GrowsKeepsMetaTrack(t1, t2, version, tracks[0]);
        } else {
          assert tracks[i] == tracks[1..][i - 1];
        }
      }
    }
  }

  /** `FunimationMetaIE._get_subtitles`: nothing for a falsy playback;
      otherwise it raises exactly when the playback is not a dict, its
      `subtitles` cannot be iterated, or one of them is not a dict, and it
      files the entry of every track and nothing else. */
  function MetaSubtitles(t: Table, playback: Value): (r: Result<Table>)
    ensures !Truthy(playback) ==> r == Ok(t)
    ensures Truthy(playback) ==>
      (r.Ok? <==>
        && ListUnder(playback, "subtitles").Ok?
        && forall i :: 0 <= i < |ListUnder(playback, "subtitles").value| ==> ListUnder(playback, "subtitles").value[i].Obj?)
    ensures Truthy(playback) && !playback.Obj? ==> r == Err(AttributeError)
    ensures Truthy(playback) && playback.Obj? && Iterate(GetOr(playback.fields, "subtitles", Null)).Err? ==> r == Err(TypeError)
    ensures r.Err? && ListUnder(playback, "subtitles").Ok? ==> r.error == AttributeError
    ensures r.Ok? ==> Grows(t, r.value) && (WellFormed(t) ==> WellFormed(r.value))
    ensures r.Ok? && Truthy(playback) ==>
      && playback.Obj?
      && Iterate(GetOr(playback.fields, "subtitles", Null)).Ok?
      && var tracks := Iterate(GetOr(playback.fields, "subtitles", Null)).value;
         && (forall i :: 0 <= i < |tracks| ==> MetaTrackFiled(r.value, GetOr(playback.fields, "version", Null), tracks[i]))
         && r.value == AddAll(t, MetaTracksEntries(GetOr(playback.fields, "version", Null), tracks))
         && AddsOnly(t, r.value, MetaTracksEntries(GetOr(playback.fields, "version", Null), tracks))
  {
    if !Truthy(playback) then Ok(t)
    else
      var tracks :- ListUnder(playback, "subtitles");
      var r := AddMetaTracks(t, GetOr(playback.fields, "version", Null), tracks);
      if r.Ok? then
        AddMetaTracksFiles(t, GetOr(playback.fields, "version", Null), tracks);
        AddMetaTracksIsFiling(t, GetOr(playback.fields, "version", Null), tracks);
        AddAllOnly(t, MetaTracksEntries(GetOr(playback.fields, "version", Null), tracks));
        r
      else r
  }
}

=== FILE: text.dfy ===
/** The ASCII part of Python's string methods the extractor relies on:
    `lower`, `upper`, `title`, `capitalize`, `str(int)`, `join` and `split`. */
module Text {

  predicate IsUpper(c: char) { 'A' <= c <= 'Z' }

  predicate IsLower(c: char) { 'a' <= c <= 'z' }

  /** Python's "cased" characters, restricted to ASCII letters. */
  predicate IsCased(c: char) { IsUpper(c) || IsLower(c) }

  function LowerChar(c: char): char {
    if IsUpper(c) then (c as int + 32) as char else c
  }

  function UpperChar(c: char): char {
    if IsLower(c) then (c as int - 32) as char else c
  }

  /** `s.lower()` */
  function Lower(s: string): (r: string)
    ensures |r| == |s|
    ensures forall i :: 0 <= i < |s| ==> r[i] == LowerChar(s[i])
  {
    seq(|s|, i requires 0 <= i < |s| => LowerChar(s[i]))
  }

  /** `s.upper()` */
  function Upper(s: string): (r: string)
    ensures |r| == |s|
    ensures forall i :: 0 <= i < |s| ==> r[i] == UpperChar(s[i])
  {
    seq(|s|, i requires 0 <= i < |s| => UpperChar(s[i]))
  }

  /** `s.title()` from a given state: a character following a cased one is
      lower-cased, any other character is upper-cased. */
  function TitleFrom(s: string, afterCased: bool): string
    decreases |s|
  {
    if |s| == 0 then ""
    else
      var c := if afterCased then LowerChar(s[0]) else UpperChar(s[0]);
      [c] + TitleFrom(s[1..], IsCased(s[0]))
  }

  /** `s.title()` */
  function Title(s: string): string {
    TitleFrom(s, false)
  }

  /** `s.capitalize()`: the first character upper-cased, the rest lower-cased. */
  function Capitalize(s: string): string {
    if |s| == 0 then "" else [UpperChar(s[0])] + Lower(s[1..])
  }

  /** Title-casing, character by character: position `i` is upper-cased exactly
      when it starts the string or follows a character that is not a letter. */
  lemma {:induction false} TitleFromChars(s: string, afterCased: bool)
    ensures |TitleFrom(s, afterCased)| == |s|
    ensures forall i :: 0 <= i < |s| ==>
      TitleFrom(s, afterCased)[i] ==
        (if (if i == 0 then afterCased else IsCased(s[i - 1])) then LowerChar(s[i]) else UpperChar(s[i]))
    decreases |s|
  {
    if |s| > 0 {
      TitleFromChars(s[1..], IsCased(s[0]));
      var r := TitleFrom(s, afterCased);
      forall i | 0 < i < |s|
        ensures r[i] == (if IsCased(s[i - 1]) then LowerChar(s[i]) else UpperChar(s[i]))
      {
        assert r[i] == TitleFrom(s[1..], IsCased(s[0]))[i - 1];
        assert s[1..][i - 1] == s[i];
        if i > 1 {
          assert s[1..][i - 2] == s[i - 1];
        }
      }
    }
  }

  lemma TitleChars(s: string)
    ensures |Title(s)| == |s|
    ensures forall i :: 0 <= i < |s| ==>
      Title(s)[i] == (if i > 0 && IsCased(s[i - 1]) then LowerChar(s[i]) else UpperChar(s[i]))
  {
    TitleFromChars(s, false);
  }

  /** Lower-casing forgets title-casing: `version.title().lower() == version.lower()`. */
  lemma LowerOfTitle(s: string)
    ensures Lower(Title(s)) == Lower(s)
  {
    TitleChars(s);
    forall i | 0 <= i < |s|
      ensures Lower(Title(s))[i] == Lower(s)[i]
    {
      CaseMaps(s[i]);
      var c := Title(s)[i];
      assert |Title(s)| == |s|;
      assert c == (if i > 0 && IsCased(s[i - 1]) then LowerChar(s[i]) else UpperChar(s[i]));
      assert Lower(Title(s))[i] == LowerChar(c);
    }
  }

  /** Each case mapping keeps a character's casedness and absorbs the other. */
  lemma CaseMaps(c: char)
    ensures LowerChar(UpperChar(c)) == LowerChar(c) && LowerChar(LowerChar(c)) == LowerChar(c)
    ensures UpperChar(UpperChar(c)) == UpperChar(c) && UpperChar(LowerChar(c)) == UpperChar(c)
    ensures IsCased(LowerChar(c)) == IsCased(c) && IsCased(UpperChar(c)) == IsCased(c)
  {
  }

  /** Lower-casing forgets upper-casing: `v.upper().lower() == v.lower()`. */
  lemma LowerOfUpper(s: string)
    ensures Lower(Upper(s)) == Lower(s)
  {
    forall i | 0 <= i < |s|
      ensures Lower(Upper(s))[i] == Lower(s)[i]
    {
      CaseMaps(s[i]);
    }
  }

  /** Lower-casing forgets capitalisation: `v.capitalize().lower() == v.lower()`. */
  lemma LowerOfCapitalize(s: string)
    ensures Lower(Capitalize(s)) == Lower(s)
  {
    if |s| > 0 {
      assert Lower(Capitalize(s))[0] == Lower(s)[0];
    }
  }

  function DigitChar(d: nat): char
    requires d < 10
  {
    "0123456789"[d]
  }

  /** The decimal digits of `n`, most significant first, without leading zeros. */
  function NatString(n: nat): (r: string)
    ensures |r| > 0
    ensures forall i :: 0 <= i < |r| ==> '0' <= r[i] <= '9'
    decreases n
  {
    if n < 10 then [DigitChar(n)] else NatString(n / 10) + [DigitChar(n % 10)]
  }

  /** The value of a string of decimal digits. */
  function DigitsValue(s: string): int
    decreases |s|
  {
    if |s| == 0 then 0 else DigitsValue(s[..|s| - 1]) * 10 + (s[|s| - 1] as int - '0' as int)
  }

  /** `str(i)` for a Python `int`. */
  function IntString(i: int): string {
    if i < 0 then "-" + NatString(-i) else NatString(i)
  }

  lemma {:induction false} NatStringValue(n: nat)
    ensures DigitsValue(NatString(n)) == n
    decreases n
  {
    if n >= 10 {
      NatStringValue(n / 10);
      var s := NatString(n);
      assert s[..|s| - 1] == NatString(n / 10);
    }
  }

  /** `str` is injective on integers: equal renderings mean equal numbers. */
  lemma IntStringInjective(a: int, b: int)
    requires IntString(a) == IntString(b)
    ensures a == b
  {
    IntStringSign(a);
    IntStringSign(b);
    assert (a < 0) == (b < 0);
    var m, n: nat := if a < 0 then -a else a, if b < 0 then -b else b;
    assert NatString(m) == NatString(n);
    NatStringValue(m);
    NatStringValue(n);
  }

  /** The rendering of an integer starts with '-' exactly when it is negative,
      and the digits after the sign are those of its magnitude. */
  lemma IntStringSign(a: int)
    ensures |IntString(a)| > 0
    ensures (IntString(a)[0] == '-') <==> a < 0
    ensures a < 0 ==> IntString(a)[1..] == NatString(-a)
    ensures a >= 0 ==> IntString(a) == NatString(a)
  {
    if a < 0 {
      assert IntString(a) == "-" + NatString(-a);
    } else {
      var s := NatString(a);
      assert '0' <= s[0] <= '9';
    }
  }

  /** `delim.join(parts)` */
  function Join(parts: seq<string>, delim: char): (r: string)
    ensures |parts| > 0 ==> parts[0] <= r
    decreases |parts|
  {
    if |parts| == 0 then ""
    else if |parts| == 1 then parts[0]
    else parts[0] + [delim] + Join(parts[1..], delim)
  }

  /** Index of the first occurrence of `c` in `s`. */
  function IndexOf(s: string, c: char): (k: nat)
    requires c in s
    ensures k < |s| && s[k] == c && c !in s[..k]
  {
    if s[0] == c then 0 else 1 + IndexOf(s[1..], c)
  }

  /** `s.split(delim)` for a one-character separator. */
  function Split(s: string, delim: char): (r: seq<string>)
    ensures |r| > 0
    decreases |s|
  {
    if delim !in s then [s]
    else
      var k := IndexOf(s, delim);
      [s[..k]] + Split(s[k + 1..], delim)
  }

  lemma SplitAfterFirst(a: string, delim: char, b: string)
    requires delim !in a
    ensures Split(a + [delim] + b, delim) == [a] + Split(b, delim)
  {
    var s := a + [delim] + b;
    assert s[|a|] == delim;
    var k := IndexOf(s, delim);
    assert s[..k] == a;
    assert s[k + 1..] == b;
  }

  /** Splitting undoes joining when no part contains the separator. */
  lemma {:induction false} SplitJoin(parts: seq<string>, delim: char)
    requires |parts| > 0
    requires forall i :: 0 <= i < |parts| ==> delim !in parts[i]
    ensures Split(Join(parts, delim), delim) == parts
    decreases |parts|
  {
    if |parts| > 1 {
      var rest := parts[1..];
      assert forall i :: 0 <= i < |rest| ==> rest[i] == parts[i + 1];
      SplitJoin(rest, delim);
      assert Join(parts, delim) == parts[0] + [delim] + Join(rest, delim);
      SplitAfterFirst(parts[0], delim, Join(rest, delim));
      assert [parts[0]] + rest == parts;
    }
  }
}
